=== FILE: README.md ===
# thing-url-adapter, modelled in Dafny

This project models the bookkeeping core of the Mozilla gateway's *thing URL adapter*. The adapter mirrors
remote Web Things into the gateway. Each thing is described by a JSON Thing Description served over HTTP,
and the adapter keeps the gateway's copy in sync over a WebSocket (push mode) or by polling (pull mode).

The model has these parts:

- `Values`: JSON values, JavaScript strict equality (`===`, under which two parsed objects or arrays are
  never equal), truthiness and template rendering of `undefined`.
- `Urls`: the rules for strings.
  - href normalisation, which drops one trailing `/`;
  - the origin of a URL;
  - the device id derived from a thing URL;
  - the URL the mDNS handlers build from a service record.
- `Headers`: both copies of `getHeaders`, the TypeScript one and the JavaScript one.
- `Config`: the timing constants, the conversion of the poll interval from seconds to milliseconds, and the
  migration of legacy string URL entries. The add-on's entry point, `LoadAdapter`, is in `Adapter`.
- `Descriptions`: Thing Description links.
  - proxy flagging;
  - property-URL selection;
  - the constructor's classification of top-level links into endpoints and kept links.
- `Messages`: WebSocket messages, poll-list entries, actions, and the notices a device reports to the gateway.
- `Property`: the class `ThingURLProperty`. It holds the cached value and runs `setValue`'s push, pull and
  failure branches.
- `Device`: the class `ThingURLDevice`.
  - construction;
  - the socket life cycle, driven by abstract open, close or error, message and timer events;
  - the `jwt` socket suffix and the reconnect backoff;
  - the `closing` guard;
  - the event dedup gate;
  - status updates for properties and actions;
  - poll cycles;
  - `performAction` and `cancelAction`.
- `Adapter`: the class `ThingURLAdapter`. It holds the known-URL table and its 5-second rate limit, the
  digest comparison, the retry bound, and the expansion of a payload into thing URLs and device ids. It
  also makes the skip-or-replace decision against the device registry and keeps the saved-device set.
  The remove and unload operations are modelled here too.

Network results, clock readings, digests and parsed JSON are parameters of the operations:

| parameter | what it stands for |
|---|---|
| `FetchOutcome` | the result of fetching a description |
| `readProperty` | the initial read of each property |
| `PollInput` | the results of one poll cycle |
| `posted` | the result of an action POST |
| `put` | the result of a property PUT |
| `now` | the current time |
| `supportsSaving` | whether the gateway reports saved devices (it has `handleDeviceSaved`) |

Notifications to the gateway are appended to logs:

| log | what it records |
|---|---|
| `ThingURLProperty.notified` | every `notifyPropertyChanged` |
| `ThingURLDevice.log` | connected, action and event notices |
| `ThingURLDevice.outbox` | messages sent on the socket |

## Model

| member | source | states |
|---|---|---|
| Urls.StripLast | src/ThingURLAdapter.ts:18 | Removing one trailing character: the result followed by the removed character (if the last one matched) is the input, so at most one character goes and the rest is untouched |
| Urls.NormaliseIdempotentIff | src/ThingURLAdapter.ts:105 | Normalising twice equals normalising once exactly when the href does not end in `//` |
| Urls.NormaliseNotIdempotent | src/ThingURLAdapter.ts:18 | `a//` normalises to `a/`, and normalising that again gives `a` |
| Urls.OriginShape | src/ThingURLAdapter.ts:82 | The origin is a prefix of the href; it is empty exactly when there is no `://`; its authority holds no `/`, `?` or `#` |
| Urls.ThingIdPointwise | src/ThingURLAdapter.ts:86 | The id has the URL's length, and every character is the URL's with `:` and `/` replaced by `-` |
| Urls.ThingIdIsSanitised | src/ThingURLAdapter.ts:86 | An id contains no `:` or `/`, and deriving an id from an id changes nothing |
| Urls.ThingIdCollision | src/ThingURLAdapter.ts:86 | Distinct thing URLs `a:b` and `a/b` share the id `a-b` |
| Urls.ServiceUrlShape | src/ThingURLAdapter.ts:252-258 | The built URL starts with `https://` iff the record has `tls` equal to `1`, and with `http://` otherwise; the host follows, without one trailing dot |
| Headers.GetHeaders | src/getHeaders.ts:3-25 | `Accept` is always JSON; `Content-Type` is JSON and present iff requested; `Authorization` is always a key, `Bearer <token>` for `jwt` and undefined for every other method; no other keys |
| Headers.GetHeadersJs | thing-url-adapter.js:41-62 | The same Accept and Content-Type rules; `Authorization` is present iff the method is `jwt`, as `Bearer <token>`; no other keys |
| Headers.CopiesAgree | thing-url-adapter.js:41-62 | The two copies agree on every header the JavaScript copy sets; the TypeScript copy differs only by an undefined `Authorization` when the method is not `jwt` |
| Headers.NonJwtIgnoresToken | src/getHeaders.ts:13-21 | For any non-`jwt` methods, both copies produce the same headers whatever the token |
| Config.TimingConstants | thing-url-adapter.js:36-39 | Initial backoff 1000 < maximum backoff 30000; poll interval 5000; ping interval 30000 |
| Config.MigrateUrls | thing-url-adapter.js:76-91 | Same length and order; each string entry becomes `{href, authentication: none}`; each object is copied; `modified` iff some entry was a string |
| Config.ReadConfig | thing-url-adapter.js:71-100 | A numeric poll setting becomes seconds × 1000, anything else keeps the current interval; the config is rewritten iff a string entry existed, with the migrated list and the poll setting kept; every migrated entry is handed to `loadThing` in order |
| Descriptions.FlagProxy | src/ThingURLDevice.ts:29-34 | rel, href and media type are kept; `proxy` is set iff it was set or the href is not absolute http(s); an absolute link is returned unchanged |
| Descriptions.FlagLinks | src/ThingURLDevice.ts:81-87 | Same length; every link keeps its rel, href and media type, and has `proxy` set iff it was set or its href is not absolute http(s); absolute links are unchanged |
| Descriptions.FirstPropertyLink | src/ThingURLDevice.ts:56-63 | The index found is a property link (no rel, or `property`) with none before it; no index means there is no property link |
| Descriptions.PropertyUrlChoice | src/ThingURLDevice.ts:55-71 | The URL comes from the first property link; without one, from the description's own `href`; a property with neither (or an empty one) is skipped |
| Descriptions.SelectPropertyUrl | src/ThingURLDevice.ts:55-71 | The search loop with its `break` computes `PropertyUrl` |
| Descriptions.ClassifyLinks | src/ThingURLDevice.ts:99-128 | The loop over the links computes `Classify`, the left-to-right fold of the per-link rule |
| Descriptions.ClassifyPushEndpoint | src/ThingURLDevice.ts:107-119 | `wsUrl` is set iff some non-HTML `alternate` link has a ws(s) href, and it is the href of the last such link |
| Descriptions.ClassifyActionsUrl | src/ThingURLDevice.ts:101-102 | `actionsUrl` is set iff an `actions` link exists, and it is the base plus the href of the last one |
| Descriptions.ClassifyEventsUrl | src/ThingURLDevice.ts:103-104 | `eventsUrl` is set iff an `events` link exists, and it is the base plus the href of the last one |
| Descriptions.ClassifyKeptLinks | src/ThingURLDevice.ts:105-126 | Every kept link is in `links` in stored form, and `links` holds nothing else. Kept means not an endpoint, not `properties`, and not a push endpoint. An HTML alternate is kept even with a ws href |
| Descriptions.ClassifyKeepsOrder | src/ThingURLDevice.ts:105-126 | `links` is exactly the filter of the description's links to the kept ones, in stored form and in their original order |
| Property.ThingURLProperty.constructor | src/ThingURLProperty.ts:2-7 | The cached value is the description's value, and it is notified once |
| Property.ThingURLProperty.Refresh | src/ThingURLDevice.ts:218-226 | The cache takes the incoming value and it is notified iff it was not strictly equal to the cached one |
| Property.ThingURLProperty.SetValue | src/ThingURLProperty.ts:16-51 | Open socket: one `setProperty` with the requested value is sent and returned, the cache is untouched, and the cached value is notified iff the request equals it. PUT success: the cache takes the thing's answer, which is notified and returned. PUT failure: nothing changes and the cached value is returned |
| Device.SocketUrlShape | src/ThingURLDevice.ts:171-187 | The endpoint is a prefix. `jwt` appends `jwt=<token>` after `&` if the endpoint has a `?`, else after `?`. Other methods leave the URL as it is |
| Device.NextBackoff | src/ThingURLDevice.ts:269 | Doubling and capping keeps a backoff in [1000, 30000] and never decreases it |
| Device.BackoffClosedForm | src/ThingURLDevice.ts:268-271 | After n failed reconnects the delay is min(1000·2ⁿ, 30000), within [1000, 30000] |
| Device.EventIds | src/ThingURLDevice.ts:358-369 | Every event of a batch has its id among the batch's ids |
| Device.EventIdsOnlyListed | src/ThingURLDevice.ts:358-369 | Every id of a batch belongs to one of its events |
| Device.AnonymousEventsCollapse | src/ThingURLDevice.ts:359-361 | Events of one name with neither `data.id` nor a timestamp share the id `<name>-undefined` |
| Device.EventNoticesCount | src/ThingURLDevice.ts:358-376 | A batch raises exactly one notice per id not seen before |
| Device.RedeliveryIsSilent | src/ThingURLDevice.ts:363-365 | A batch whose ids were all seen raises nothing |
| Device.TrackKeepsActions | src/ThingURLDevice.ts:232-239 | Reports never add or drop tracked actions or change their id, name or input. An action no report names is untouched. Each report raises at most one notice |
| Device.TrackLastReportWins | src/ThingURLDevice.ts:309-317 | In both modes a tracked action ends with the status of the last report naming it; polling skips only reports whose status already is the tracked one |
| Device.LoadProperties | src/ThingURLDevice.ts:52-96 | Exactly the properties with a URL whose initial read succeeded are created: fresh, keyed by name, at the selected URL, caching the value read and notified once |
| Device.ThingURLDevice.constructor | src/ThingURLDevice.ts:2-151 | Endpoints and links are the classification of the description's links against the URL's origin; interaction links are proxy-flagged; properties as above; initial backoff, no poll timer, not closing. No socket, except that on a gateway that does not report saved devices a push device starts connecting to its endpoint at once |
| Device.ThingURLDevice.StartReading | src/ThingURLDevice.ts:133-151 | Push mode starts connecting to the socket URL when the device has no socket and is not closing, and otherwise leaves the socket and socket URL as they were; pull mode starts a poll iff no poll timer was ever stored (`scheduledUpdate`), even when that timer has since fired or been cancelled |
| Device.ThingURLDevice.CloseWebSocket | src/ThingURLDevice.ts:153-164 | Sets `closing`; an open socket is sent a `Close` request and is closing until its close event; any other socket is untouched; without a socket a scheduled poll is cancelled. The whole new state is `AfterClose` of the old one |
| Device.CloseTwiceIsCloseOnce | src/ThingURLDevice.ts:153-164 | Closing a closed device changes nothing more, and a close sends `Close` iff the socket was open |
| Device.ThingURLDevice.CreateWebSocket | src/ThingURLDevice.ts:166-187 | Once closing nothing happens; otherwise a socket connects to the endpoint with the auth suffix |
| Device.ThingURLDevice.OnOpen | src/ThingURLDevice.ts:189-210 | Connected is reported and the backoff resets. Pinging starts. A subscription to every described event is sent iff there is one |
| Device.ThingURLDevice.OnCloseOrError | src/ThingURLDevice.ts:255-275 | Disconnected is reported, pinging stops, the socket is dropped and a reconnect is scheduled after the current backoff |
| Device.ThingURLDevice.OnReconnectTimer | src/ThingURLDevice.ts:268-271 | The backoff doubles, capped; a socket reopens unless the device is closing |
| Device.ThingURLDevice.RefreshProperties | src/ThingURLDevice.ts:218-228 | Each mirrored property named in the values is refreshed as `Refresh` states; the others are untouched |
| Device.ThingURLDevice.TrackReports | src/ThingURLDevice.ts:231-241 | Applying the reports one by one yields `Track` of them, with its notices appended |
| Device.ThingURLDevice.CreateEvent | src/ThingURLDevice.ts:358-376 | A seen id changes nothing; a new id is recorded and its event is notified once, with `null` data if falsy and the current time if there was no timestamp |
| Device.ThingURLDevice.DeliverEvents | src/ThingURLDevice.ts:243-247 | The seen ids gain the batch's ids and the log gains exactly the notices of the unseen events, in order |
| Device.ThingURLDevice.OnMessage | src/ThingURLDevice.ts:212-253 | `propertyStatus` refreshes properties, `actionStatus` tracks every report, `event` delivers events; anything else changes nothing |
| Device.ThingURLDevice.ActionsStage | src/ThingURLDevice.ts:298-322 | The actions stage succeeds iff it runs and there is no actions endpoint or the list was read; it never adds or drops tracked actions, and when not read it changes nothing |
| Device.ThingURLDevice.EventsStage | src/ThingURLDevice.ts:323-339 | The events stage succeeds iff it runs and there is no events endpoint or the list was read; it raises one notice per unseen id, and when not read it changes nothing |
| Device.ThingURLDevice.ReadActionList | src/ThingURLDevice.ts:300-320 | Computes `ActionsStage` on the tracked actions and the log |
| Device.ThingURLDevice.ReadEventList | src/ThingURLDevice.ts:325-337 | Computes `EventsStage` on the seen ids and the log |
| Device.ThingURLDevice.PollStagesOutcome | src/ThingURLDevice.ts:298-346 | A cycle ends with one connected notice, true iff every stage succeeded; after a failed property read only `Connected(false)` is reported; tracked actions keep their keys and seen ids only grow |
| Device.ThingURLDevice.PollStages | src/ThingURLDevice.ts:298-346 | Computes `PollStagesOutcome` on the device's state |
| Device.ThingURLDevice.Poll | src/ThingURLDevice.ts:278-356 | Once closing nothing changes. Otherwise properties are refreshed from the reads that succeeded, the later stages run as `PollStagesOutcome` states, and the next cycle is scheduled after the poll interval |
| Device.ThingURLDevice.PerformAction | src/ThingURLDevice.ts:378-393 | The action is started first: its status becomes `pending` and it is reported. Success tracks the started action under the returned href; failure marks it `error` and reports it again at once. Id, name, input and times are kept |
| Device.ThingURLDevice.CancelAction | src/ThingURLDevice.ts:395-416 | Exactly the tracked actions whose id and name match are deleted and returned; all others stay as they were |
| Device.ThingURLDevice.SetPropertyValue | src/ThingURLProperty.ts:17-31 | An unknown property gives nothing. With an open socket, one `setProperty` goes out and the request is returned. Other properties are untouched |
| Adapter.ThingUrlsListed | src/ThingURLAdapter.ts:79-84 | Every description of the payload contributes its thing URL (origin plus `href`, or the fetched href) |
| Adapter.ThingUrlsOnlyListed | src/ThingURLAdapter.ts:79-84 | Every thing URL comes from some description of the payload |
| Adapter.ThingIdsListed | src/ThingURLAdapter.ts:79-86 | Every description contributes the id of its thing URL |
| Adapter.ThingIdsOnlyListed | src/ThingURLAdapter.ts:79-86 | Every device id comes from some description of the payload |
| Adapter.UnreachableOutcome | src/ThingURLAdapter.ts:36-44 | After a failed fetch a retry is scheduled iff the counter is below 5, with the counter plus one and a 2 s delay; otherwise the load gives up |
| Adapter.AttemptsBound | src/ThingURLAdapter.ts:36-44 | Retrying while the counter is below 5 makes 6 − c fetches from counter c, so at most 6 from a fresh call |
| Adapter.ThingURLAdapter.constructor | src/ThingURLAdapter.ts:4-11 | No known URLs, no saved devices, no devices, the default poll interval |
| Adapter.ThingURLAdapter.ApplyConfig | thing-url-adapter.js:71-100 | A numeric poll setting becomes the adapter's interval in milliseconds, anything else leaves it; the config is rewritten iff a string entry existed; the URLs to load are the migrated entries, in order |
| Adapter.LoadAdapter | thing-url-adapter.js:64-104 | A fresh, empty adapter whose poll interval is the stored seconds × 1000, or 5000 when no number is stored; the config is rewritten iff a string entry existed; the URLs to load are the migrated entries, in order |
| Adapter.ThingURLAdapter.HandleDeviceSaved | src/ThingURLAdapter.ts:158-164 | The id is always saved. A registered push device with no socket that is not closing starts connecting to its socket URL; every other registered device keeps its socket and socket URL. A registered pull device starts polling iff no poll timer was ever stored |
| Adapter.ThingURLAdapter.RemoveThing | src/ThingURLAdapter.ts:173-187 | The id leaves `savedDevices` only when not internal; it succeeds iff registered, then the device is unregistered and closed as `CloseWebSocket` states (an open socket is sent `Close`, a socketless device's scheduled poll is cancelled) and nothing else of it changes; otherwise the device is untouched |
| Adapter.ThingURLAdapter.AddDevice | src/ThingURLAdapter.ts:126-150 | An id already registered is rejected with nothing changed; otherwise a fresh, not closing device built from the given description, with this id, URL, authentication and mDNS URL, is registered. A push device connects iff its id was saved or the gateway does not report saving; a pull device starts polling iff its id was saved |
| Adapter.ThingURLAdapter.Reconcile | src/ThingURLAdapter.ts:86-100 | A registered id with an unchanged digest is skipped and every device is left as it was; a registered id with a changed digest has its old device closed exactly as `CloseWebSocket` states (`AfterClose`, nothing else of it changes) and replaced; a new id gets a fresh device built from the description at its thing URL. No device with another id changes, and a device that was closing stays closing |
| Adapter.ThingURLAdapter.ReconcileAll | src/ThingURLAdapter.ts:72-101 | The registry gains exactly the payload's ids. Devices under other ids keep their reference and their whole state, and with an unchanged digest so does every registered device; with a changed digest every replaced device is closed exactly as `CloseWebSocket` states and nothing else of it changes. Each new device is fresh and built from one of the payload's descriptions, at that description's thing URL, whose id is its key |
| Adapter.ThingURLAdapter.LoadThing | src/ThingURLAdapter.ts:13-102 | Detailed under "LoadThing" below |
| Adapter.ThingURLAdapter.StoreFetched | src/ThingURLAdapter.ts:57-101 | The entry takes the new digest and time; a payload that does not parse loads nothing and leaves every device as it was; one that parses is `Loaded` and reconciled as `ReconcileAll` states |
| Adapter.ThingURLAdapter.CloseAndRemove | src/ThingURLAdapter.ts:108-112 | The device is closed as `CloseWebSocket` states (a second close sends nothing more) and unregistered; nothing else changes |
| Adapter.ThingURLAdapter.UnloadThing | src/ThingURLAdapter.ts:104-118 | Exactly the devices whose mDNS URL is the normalised URL are unregistered and closed exactly as `CloseWebSocket` states (nothing else of them changes), and that href leaves the known-URL table; every remaining device keeps its whole state |
| Adapter.ThingURLAdapter.CloseServedFrom | src/ThingURLAdapter.ts:107-112 | The loop over the registry: a device served from the URL is unregistered and closed as `CloseWebSocket` states; every other device stays registered and untouched |
| Adapter.ThingURLAdapter.Unload | src/ThingURLAdapter.ts:225-243 | Every registered device is closed exactly as `CloseWebSocket` states, once |

### LoadThing

`Adapter.ThingURLAdapter.LoadThing` states the following:

- An unknown normalised href gets one entry with an empty digest and timestamp 0.
- Within 5 s of the last fetch nothing else happens.
- A failed fetch has the outcome `UnreachableOutcome` gives: a retry with counter + 1 after 2 s, or giving up once the counter reaches 5.
- Whenever nothing is loaded (rate limited, retrying, given up, or a text that does not parse), the registry and the state of every registered device are unchanged.
- A fetched text:
  - compares its digest with the stored one (`known`);
  - overwrites the entry even when parsing fails;
  - is loaded exactly when it parses;
  - registers the payload's devices as `ReconcileAll` states: devices under other ids keep their whole state, as do all registered devices when the digest is known; every replaced device is closed exactly as `CloseWebSocket` states; every new device is fresh and built from one of the payload's descriptions at its thing URL.

## Left out

- Network I/O is left out: `fetch`, the `ws` WebSocket and its ping frames. Each fetch, read, PUT and POST is an outcome passed in, and the socket is driven by the events `OnOpen`, `OnCloseOrError`, `OnMessage` and `OnReconnectTimer`.
- Timers are left out: `setTimeout`, `setInterval` and `clearTimeout`. A scheduled reconnect or poll is recorded as a delay in a field, and the ping interval as a flag.
- `Date.now()` and `new Date().toISOString()` are parameters.
- MD5 digests are opaque strings; only their equality is used.
- `JSON.parse` and `JSON.stringify` are left out. Descriptions, messages, poll lists and config arrive already parsed. A payload that does not parse is `payload: None`, and a message that does not parse or has an unknown type is `Unrecognized`.
- Urls.OriginShape: `new URL(href).origin` is approximated as the href up to the end of the authority after the first `://`. Scheme and host case folding, default-port removal, the removal of user information (`http://u:p@h/x` has origin `http://h`) and URL validation are not modelled.
- Numbers are integers. A fractional poll-interval setting is not modelled.
- `removeDeviceFromConfig` is not modelled. It reads and writes the persisted config, and it reaches the in-memory state only by deleting a known URL after a successful save. Here it has no effect on the adapter.
- The mDNS browsers and their start and stop are left out, except for the URL built by the `_webthing._tcp` handlers (`Urls.ServiceUrl`). The legacy handlers pass `txt.url` through unchanged.
- `startPairing` only calls `loadThing` for every known URL, and is not modelled separately.
- The gateway base classes (`Adapter`, `Device`, `Property`, `Event` and their `handle*` and `*Notify` methods) are not part of this model. The registry is a map owned by the adapter, and notifications are appended to logs.
- The device metadata copied verbatim from the description is not modelled: title, type, `@context`, `@type` and description. `addAction` and `addEvent` are modelled only as the proxy-flagged interaction maps.
- Promises run as sequential steps. `loadThing` awaits each removal and addition, and `unloadThing` does not await `removeThing`; both are taken as completing in order. Concurrent `loadThing` and `unloadThing` calls are not modelled.
- Adapter.ThingURLAdapter.LoadThing: the placeholder entry of an unknown href (empty digest, timestamp 0) is stored when the call ends without a body rather than first. When a body arrives the source overwrites that entry before anything reads it, so the resulting table is the same.
- Adapter.ThingURLAdapter.AddDevice: the device is registered at once. In the source it is registered only after its initial property reads settle.
- Device.LoadProperties: the initial property reads are modelled as independent outcomes, so the order in which they complete does not matter.
- Tracked actions are values in a map. In the source one action object may be shared by several entries, and the gateway holds the same objects. That aliasing is not modelled.
- Device.ThingURLDevice.SetPropertyValue: states the device side of `setValue` only. What the property's cache and notices become is stated by `Property.ThingURLProperty.SetValue`, which it calls.
- Adapter.ThingURLAdapter.ApplyConfig: does not restate the rewritten config's contents. `Config.ReadConfig`, which it calls, states them.
- Adapter.ThingURLAdapter.Unload: stopping the mDNS browsers and the base class's unload are left out. Only the closing of every device is stated.
- Adapter.ThingURLAdapter.HandleDeviceSaved: a pull device's poll is reported as started, not run. `Device.ThingURLDevice.Poll` models a poll cycle.
- Adapter.ThingURLAdapter.Reconcile: the poll start that `AddDevice` reports is not passed on, so `Reconcile`, `ReconcileAll` and `LoadThing` do not say which new devices start polling.
- Device.ThingURLDevice.constructor: on a gateway that does not report saved devices (`supportsSaving` false), a pull device starts polling at construction. A constructor returns nothing, so that poll start is not reported; the push case (a socket starts connecting) is stated. Whether the gateway reports saved devices is a parameter, because the source reads it from the gateway library.
- Device.ThingURLDevice.PerformAction: `action.start()` belongs to the gateway's `Action` class, which is not part of this model. It is modelled as setting the status to `pending` and reporting the action once.
- Device.ThingURLDevice.CreateEvent: event ids are compared as values. In the source, the set of notified ids compares an object or array `data.id` by reference, so such an event is never recognised as seen; here a structurally equal id is.
- The device's `Valid` invariant does not include "properties are keyed by their name". That fact is a separate predicate, `KeyedByName`: the constructor establishes it, and the operations that need it require it.
- A device that is closing still gets a reconnect timer when its socket closes (src/ThingURLDevice.ts:255-271). The timer's callback then only doubles the backoff, because `createWebSocket` returns at once.

=== FILE: adapter.dfy ===
/**
 * The discovery and dedup manager (src/ThingURLAdapter.ts): the table of known URLs with
 * its rate limit and content digests, the registry of devices keyed by id, and the set of
 * ids the user saved. Fetch outcomes, digests, parsed descriptions and the clock are inputs.
 */
module Adapter {
  import opened Values
  import opened Urls
  import opened Headers
  import opened Config
  import opened Descriptions
  import opened Device
  import Messages

  /** A `knownUrls` entry: when the href was last fetched and the digest of what it served. */
  datatype KnownUrl = KnownUrl(href: string, authentication: Authentication, digest: string, timestamp: int)

  /** The parsed body of a thing URL: one description, or an array of them. */
  datatype Payload = One(description: Description) | Many(descriptions: seq<Description>)

  /**
   * The fetch of a thing URL: the transport failed, or the body arrived with its digest and,
   * unless the JSON did not parse, its payload.
   */
  datatype FetchOutcome = Unreachable | Fetched(digest: string, payload: Option<Payload>)

  /** How a `loadThing` call ended. */
  datatype LoadOutcome =
    | RateLimited
    | RetryScheduled(retryCounter: nat, delay: int)
    | GaveUp
    | ParseFailed
    | Loaded(known: bool)

  /** A href fetched less than this many milliseconds ago is not fetched again. */
  const RATE_LIMIT: int := 5000
  const RETRY_DELAY: int := 2000
  const MAX_RETRIES: nat := 5

  /** The descriptions a payload carries, in order. */
  function Things(p: Payload): seq<Description> {
    match p
    case One(d) => [d]
    case Many(ds) => ds
  }

  /** A description with its own `href` lives at that path on the origin of the URL served it. */
  function ThingUrl(href: string, d: Description): string {
    if d.href.Some? then Origin(href) + d.href.value else href
  }

  /** The thing URLs of a list of descriptions served at `href`. */
  function ThingUrls(href: string, things: seq<Description>): set<string>
    decreases |things|
  {
    if things == [] then {}
    else ThingUrls(href, things[..|things| - 1]) + {ThingUrl(href, things[|things| - 1])}
  }

  /** The device ids a list of descriptions served at `href` maps to. */
  function ThingIds(href: string, things: seq<Description>): set<string>
    decreases |things|
  {
    if things == [] then {}
    else ThingIds(href, things[..|things| - 1]) + {ThingId(ThingUrl(href, things[|things| - 1]))}
  }

  /** Every listed description contributes its thing URL. */
  lemma {:induction false} ThingUrlsListed(href: string, things: seq<Description>)
    ensures forall j :: 0 <= j < |things| ==> ThingUrl(href, things[j]) in ThingUrls(href, things)
    decreases |things|
  {
    if things != [] {
      var n := |things| - 1;
      var prefix := things[..n];
      ThingUrlsListed(href, prefix);
      forall j | 0 <= j < n
        ensures ThingUrl(href, things[j]) in ThingUrls(href, things)
      {
        assert prefix[j] == things[j];
      }
    }
  }

  /** Every thing URL comes from some listed description. */
  lemma {:induction false} ThingUrlsOnlyListed(href: string, things: seq<Description>)
    ensures forall u :: u in ThingUrls(href, things) ==> exists j :: 0 <= j < |things| && ThingUrl(href, things[j]) == u
    decreases |things|
  {
    if things != [] {
      var n := |things| - 1;
      var prefix := things[..n];
      ThingUrlsOnlyListed(href, prefix);
      forall u | u in ThingUrls(href, things)
        ensures exists j :: 0 <= j < |things| && ThingUrl(href, things[j]) == u
      {
        if u in ThingUrls(href, prefix) {
          var j :| 0 <= j < n && ThingUrl(href, prefix[j]) == u;
          assert prefix[j] == things[j];
        } else {
          assert ThingUrl(href, things[n]) == u;
        }
      }
    }
  }

  /** Every listed description contributes the id of its thing URL. */
  lemma {:induction false} ThingIdsListed(href: string, things: seq<Description>)
    ensures forall j :: 0 <= j < |things| ==> ThingId(ThingUrl(href, things[j])) in ThingIds(href, things)
    decreases |things|
  {
    if things != [] {
      var n := |things| - 1;
      var prefix := things[..n];
      ThingIdsListed(href, prefix);
      forall j | 0 <= j < n
        ensures ThingId(ThingUrl(href, things[j])) in ThingIds(href, things)
      {
        assert prefix[j] == things[j];
      }
    }
  }

  /** Every device id is the id of some listed description's thing URL. */
  lemma {:induction false} ThingIdsOnlyListed(href: string, things: seq<Description>)
    ensures forall k :: k in ThingIds(href, things) ==> exists j :: 0 <= j < |things| && ThingId(ThingUrl(href, things[j])) == k
    decreases |things|
  {
    if things != [] {
      var n := |things| - 1;
      var prefix := things[..n];
      ThingIdsOnlyListed(href, prefix);
      forall k | k in ThingIds(href, things)
        ensures exists j :: 0 <= j < |things| && ThingId(ThingUrl(href, things[j])) == k
      {
        if k in ThingIds(href, prefix) {
          var j :| 0 <= j < n && ThingId(ThingUrl(href, prefix[j])) == k;
          assert prefix[j] == things[j];
        } else {
          assert ThingId(ThingUrl(href, things[n])) == k;
        }
      }
    }
  }

  /** What `loadThing` does after a failed fetch: retry later with the next counter, or give up. */
  function UnreachableOutcome(retryCounter: nat): (r: LoadOutcome)
    ensures r.RetryScheduled? || r.GaveUp?
    ensures r.RetryScheduled? <==> retryCounter < MAX_RETRIES
    ensures r.RetryScheduled? ==> r.retryCounter == retryCounter + 1 && r.delay == RETRY_DELAY
  {
    if retryCounter >= MAX_RETRIES then GaveUp else RetryScheduled(retryCounter + 1, RETRY_DELAY)
  }

  /**
   * The number of fetches one call makes when every fetch fails: each outcome that schedules
   * a retry leads to one more call, with the counter it carries.
   */
  function AttemptsFrom(retryCounter: nat): nat
    decreases MAX_RETRIES - retryCounter
  {
    match UnreachableOutcome(retryCounter)
    case RetryScheduled(next, _) => 1 + AttemptsFrom(next)
    case _ => 1
  }

  /** Retrying while the counter is below 5 bounds the fetches to 6 from a fresh call. */
  lemma {:induction false} AttemptsBound(retryCounter: nat)
    ensures AttemptsFrom(retryCounter) == if retryCounter < MAX_RETRIES then 6 - retryCounter else 1
    decreases MAX_RETRIES - retryCounter
  {
    if retryCounter < MAX_RETRIES {
      AttemptsBound(retryCounter + 1);
    }
  }

  /** The descriptions of a list, as a set. */
  function Listed(things: seq<Description>): set<Description>
    decreases |things|
  {
    if things == [] then {} else Listed(things[..|things| - 1]) + {things[|things| - 1]}
  }

  /** The set holds exactly the listed descriptions. */
  lemma {:induction false} ListedIff(things: seq<Description>, x: Description)
    ensures x in Listed(things) <==> exists j :: 0 <= j < |things| && things[j] == x
    decreases |things|
  {
    if things != [] {
      var n := |things| - 1;
      var prefix := things[..n];
      ListedIff(prefix, x);
      if x in Listed(prefix) {
        var j :| 0 <= j < n && prefix[j] == x;
        assert things[j] == x;
      }
      if exists j :: 0 <= j < |things| && things[j] == x {
        var j :| 0 <= j < |things| && things[j] == x;
        if j < n {
          assert prefix[j] == x;
        }
      }
    }
  }

  /**
   * A device registered for one of the descriptions served at `href`: under that description's
   * id, at its thing URL, with the URL's authentication and the description itself.
   */
  ghost predicate BuiltFrom(d: ThingURLDevice, id: string, href: string, authentication: Authentication,
                            things: seq<Description>)
  {
    && d.mdnsUrl == href && d.authentication == authentication && ThingId(d.url) == id
    && d.source in Listed(things) && d.url == ThingUrl(href, d.source)
  }

  /**
   * Reconciling one more description keeps every device registered for the descriptions so
   * far built from one of them: the new description's device is built from it, and every
   * other one is the device registered before.
   */
  lemma BuiltStep(start: set<string>, prev: map<string, ThingURLDevice>, cur: map<string, ThingURLDevice>,
                  href: string, authentication: Authentication, things: seq<Description>, known: bool)
    requires things != []
    requires prev.Keys == start + ThingIds(href, things[..|things| - 1])
    requires forall k :: k in ThingIds(href, things[..|things| - 1]) && !(known && k in start) ==>
      BuiltFrom(prev[k], k, href, authentication, things[..|things| - 1])
    requires var id := ThingId(ThingUrl(href, things[|things| - 1]));
      && cur.Keys == prev.Keys + {id}
      && (forall k :: k in prev && k != id ==> cur[k] == prev[k])
      && (known && id in prev ==> cur[id] == prev[id])
      && (!(known && id in prev) ==>
            && cur[id].source == things[|things| - 1] && cur[id].url == ThingUrl(href, things[|things| - 1])
            && cur[id].mdnsUrl == href && cur[id].authentication == authentication)
    ensures forall k :: k in ThingIds(href, things) && !(known && k in start) ==>
      BuiltFrom(cur[k], k, href, authentication, things)
  {
    var n := |things| - 1;
    var id := ThingId(ThingUrl(href, things[n]));
    forall k | k in ThingIds(href, things) && !(known && k in start)
      ensures BuiltFrom(cur[k], k, href, authentication, things)
    {
      if k in ThingIds(href, things[..n]) && cur[k] == prev[k] {
        assert BuiltFrom(prev[k], k, href, authentication, things[..n]);
      } else {
        assert k == id;
      }
    }
  }

  class ThingURLAdapter {
    /** Whether the gateway reports saved devices (older gateways start reading at once). */
    const supportsSaving: bool
    var knownUrls: map<string, KnownUrl>
    var savedDevices: set<string>
    var devices: map<string, ThingURLDevice>
    var pollInterval: int

    /** Known URLs are keyed by their href, devices by their id, and every device is valid. */
    ghost predicate Valid()
      reads this, devices.Values
    {
      && (forall h :: h in knownUrls ==> knownUrls[h].href == h)
      && (forall id :: id in devices ==> devices[id].id == id)
      && (forall id {:trigger devices[id].Valid()} :: id in devices ==> devices[id].Valid())
    }

    constructor (supportsSaving: bool)
      ensures Valid() && this.supportsSaving == supportsSaving
      ensures knownUrls == map[] && savedDevices == {} && devices == map[] && pollInterval == POLL_INTERVAL
    {
      this.supportsSaving := supportsSaving;
      knownUrls := map[];
      savedDevices := {};
      devices := map[];
      pollInterval := POLL_INTERVAL;
    }

    /**
     * The start-up configuration step: adopt the stored poll interval and return the
     * configuration to write back (if any) and the URL entries to load.
     */
    method ApplyConfig(config: StoredConfig) returns (rewritten: Option<StoredConfig>, toLoad: seq<UrlEntry>)
      modifies this`pollInterval
      ensures config.pollInterval.Seconds? ==> pollInterval == config.pollInterval.seconds * 1000
      ensures config.pollInterval.NotANumber? ==> pollInterval == old(pollInterval)
      ensures rewritten.Some? <==> exists i :: 0 <= i < |config.urls| && config.urls[i].Legacy?
      ensures |toLoad| == |config.urls|
      ensures forall i :: 0 <= i < |toLoad| ==> toLoad[i] == Migrated(config.urls[i])
    {
      pollInterval, rewritten, toLoad := ReadConfig(config, pollInterval);
    }

    /**
     * `handleDeviceSaved`: remember the id as saved (it may belong to another adapter) and,
     * if the device is registered, start reading it.
     */
    method HandleDeviceSaved(deviceId: string) returns (pollStarted: bool)
      requires Valid()
      modifies this`savedDevices
      modifies (if deviceId in devices then {devices[deviceId]} else {})`socket
      modifies (if deviceId in devices then {devices[deviceId]} else {})`socketUrl
      ensures Valid()
      ensures savedDevices == old(savedDevices) + {deviceId}
      ensures devices == old(devices) && knownUrls == old(knownUrls)
      ensures pollStarted ==> deviceId in devices && !devices[deviceId].PushMode()
      ensures deviceId in devices && !devices[deviceId].PushMode() ==>
        (pollStarted <==> !devices[deviceId].scheduledUpdate)
      ensures deviceId in devices ==>
        var d := devices[deviceId];
        if d.PushMode() && old(d.socket) == NoSocket && !d.closing then
          d.socket == Connecting && d.socketUrl == Some(SocketUrl(d.wsUrl.value, d.authentication))
        else
          d.socket == old(d.socket) && d.socketUrl == old(d.socketUrl)
    {
      savedDevices := savedDevices + {deviceId};
      pollStarted := false;
      if deviceId in devices {
        pollStarted := devices[deviceId].StartReading();
      }
    }

    /**
     * `removeThing`: forget a user-removed id as saved (`internal` removals keep it) and, if
     * a device is registered under the id, unregister and close it; otherwise the removal
     * fails (`removed` is false). The configuration store is not touched in this model.
     */
    method RemoveThing(device: ThingURLDevice, internal: bool) returns (removed: bool)
      requires Valid() && device.Valid()
      modifies this`savedDevices, this`devices, device`closing, device`pollDelay, device`outbox, device`socket
      ensures Valid() && device.Valid()
      ensures savedDevices == if internal then old(savedDevices) else old(savedDevices) - {device.id}
      ensures removed <==> device.id in old(devices)
      ensures devices == old(devices) - {device.id}
      ensures removed ==> device.closing
      ensures removed ==> device.socket == if old(device.socket) == Open then Closing else old(device.socket)
      ensures removed ==>
        device.pollDelay == if old(device.socket) == NoSocket && device.scheduledUpdate then None else old(device.pollDelay)
      ensures removed ==> device.outbox == old(device.outbox) + if old(device.socket) == Open then [Messages.Close] else []
      ensures removed ==> device.State() == AfterClose(old(device.State()))
      ensures !removed ==> unchanged(device)
      ensures knownUrls == old(knownUrls)
    {
      if !internal {
        savedDevices := savedDevices - {device.id};
      }
      removed := device.id in devices;
      if removed {
        devices := devices - {device.id};
        device.CloseWebSocket();
      }
    }

    /**
     * `addDevice`: reject an id already registered; otherwise build the device, register it
     * and, when its id was saved, start reading it: `pollStarted` says a saved device without
     * a WebSocket endpoint starts polling.
     */
    method AddDevice(deviceId: string, deviceUrl: string, authentication: Authentication,
                     description: Description, mdnsUrl: string,
                     readProperty: (string, string) -> Option<Value>)
      returns (added: Option<ThingURLDevice>, pollStarted: bool)
      requires Valid()
      modifies this`devices
      ensures Valid()
      ensures deviceId in old(devices) ==> added.None? && !pollStarted && devices == old(devices)
      ensures deviceId !in old(devices) ==>
        && added.Some? && fresh(added.value)
        && devices == old(devices)[deviceId := added.value]
        && Fresh(added.value, deviceId, deviceUrl, authentication, mdnsUrl, description)
        && (pollStarted <==> deviceId in savedDevices && !added.value.PushMode())
      ensures savedDevices == old(savedDevices) && knownUrls == old(knownUrls)
    {
      pollStarted := false;
      if deviceId in devices {
        return None, false;
      }
      var device := new ThingURLDevice(deviceId, deviceUrl, authentication, description, mdnsUrl, readProperty,
                                       supportsSaving);
      devices := devices[deviceId := device];
      if deviceId in savedDevices {
        pollStarted := device.StartReading();
      }
      added := Some(device);
    }

    /**
     * A device as `addDevice` leaves it: built for this thing from its description, not
     * closing, and connecting (in push mode) exactly when its id was saved or the gateway
     * does not report saving.
     */
    ghost predicate Fresh(d: ThingURLDevice, deviceId: string, deviceUrl: string,
                          authentication: Authentication, mdnsUrl: string, description: Description)
      reads this, d
    {
      && d.id == deviceId && d.url == deviceUrl && d.authentication == authentication && d.source == description
      && d.mdnsUrl == mdnsUrl && !d.closing
      && (d.PushMode() ==> (d.socket == Connecting <==> deviceId in savedDevices || !supportsSaving))
    }

    /**
     * One description of a loaded URL against the registry: a registered id is skipped when
     * the content is known, and otherwise removed (internally) and added again.
     */
    method Reconcile(id: string, thingUrl: string, authentication: Authentication, description: Description,
                     mdnsUrl: string, known: bool, readProperty: (string, string) -> Option<Value>)
      requires Valid()
      modifies this`devices, this`savedDevices, if id in devices then {devices[id]} else {}
      ensures Valid()
      ensures devices.Keys == old(devices).Keys + {id}
      ensures forall k :: k in old(devices) && k != id ==> devices[k] == old(devices)[k]
      ensures known && id in old(devices) ==> devices[id] == old(devices)[id]
      ensures !(known && id in old(devices)) ==>
        fresh(devices[id]) && Fresh(devices[id], id, thingUrl, authentication, mdnsUrl, description)
      ensures !known && id in old(devices) ==>
        var d := old(devices)[id];
        d.closing && d.ClosedSince()
      ensures forall d: ThingURLDevice :: old(allocated(d)) && old(d.closing) ==> d.closing
      ensures forall d: ThingURLDevice ::
        old(allocated(d)) && (known || d.id != id || id !in old(devices) || d != old(devices)[id]) ==> unchanged(d)
      ensures savedDevices == old(savedDevices) && knownUrls == old(knownUrls)
    {
      if id in devices {
        if known {
          return;
        }
        var removed := RemoveThing(devices[id], true);
      }
      var added, pollStarted := AddDevice(id, thingUrl, authentication, description, mdnsUrl, readProperty);
    }

    /** The description loop of `loadThing`: every description reconciled in order. */
    method ReconcileAll(href: string, authentication: Authentication, things: seq<Description>, known: bool,
                        readProperty: (string, string) -> Option<Value>)
      requires Valid()
      modifies this`devices, this`savedDevices, devices.Values
      ensures Valid()
      ensures savedDevices == old(savedDevices) && knownUrls == old(knownUrls)
      ensures devices.Keys == old(devices).Keys + ThingIds(href, things)
      ensures forall k :: k in old(devices) && (known || k !in ThingIds(href, things)) ==>
        devices[k] == old(devices)[k] && unchanged(old(devices)[k])
      ensures !known ==> forall k :: k in old(devices) && k in ThingIds(href, things) ==>
        var d := old(devices)[k];
        d.closing && d.ClosedSince()
      ensures forall d: ThingURLDevice :: old(allocated(d)) && old(d.closing) ==> d.closing
      ensures forall k :: k in ThingIds(href, things) && !(known && k in old(devices)) ==> fresh(devices[k])
      ensures forall k :: k in ThingIds(href, things) && !(known && k in old(devices)) ==>
        BuiltFrom(devices[k], k, href, authentication, things)
      decreases |things|
    {
      if things == [] {
        return;
      }
      var n := |things| - 1;
      ReconcileAll(href, authentication, things[..n], known, readProperty);
      label Middle:
      var thingUrl := ThingUrl(href, things[n]);
      var id := ThingId(thingUrl);
      ghost var previous := devices;
      forall k | !known && k in old(devices) && k !in ThingIds(href, things[..n])
        ensures var d := old(devices)[k]; d.State() == old(d.State())
      {
        old(devices)[k].StateKept();
      }
      Reconcile(id, thingUrl, authentication, things[n], href, known, readProperty);
      forall k | k in old(devices) && (known || k !in ThingIds(href, things))
        ensures devices[k] == old(devices)[k] && unchanged(old(devices)[k])
      {
        assert previous[k] == old(devices)[k] && unchanged@Middle(previous[k]);
      }
      forall k | !known && k in old(devices) && k in ThingIds(href, things)
        ensures var d := old(devices)[k]; d.closing && d.ClosedSince()
      {
        var d := old(devices)[k];
        if k in ThingIds(href, things[..n]) {
          // Closed by an earlier description; its replacement is fresh, so `d` is left alone.
          assert previous[k] != d && unchanged@Middle(d);
          d.StateKept@Middle();
        } else {
          assert k == id && previous[k] == d;
        }
      }
      forall k | k in ThingIds(href, things) && !(known && k in old(devices))
        ensures fresh(devices[k])
      {
        if k != id {
          assert devices[k] == previous[k];
        }
      }
      BuiltStep(old(devices).Keys, previous, devices, href, authentication, things, known);
    }

    /**
     * `loadThing`. The href is normalised and gets a `knownUrls` entry (digest `''`,
     * timestamp 0) if it has none; an entry fetched within the rate limit ends the call.
     * A failed fetch schedules a retry while the counter is below 5. A body that arrived
     * overwrites the entry with its digest and `now`, even when it does not parse; then each
     * description is reconciled with the registry, `known` meaning the digest is unchanged.
     */
    method LoadThing(url: UrlEntry, retryCounter: nat, now: int, fetched: FetchOutcome,
                     readProperty: (string, string) -> Option<Value>)
      returns (outcome: LoadOutcome)
      requires Valid()
      modifies this`knownUrls, this`devices, this`savedDevices, devices.Values
      ensures Valid()
      ensures savedDevices == old(savedDevices)
      ensures var href := Normalise(url.href);
        var prior := if href in old(knownUrls) then old(knownUrls)[href] else KnownUrl(href, url.authentication, "", 0);
        && (prior.timestamp + RATE_LIMIT > now ==>
              outcome == RateLimited && knownUrls == old(knownUrls)[href := prior] && devices == old(devices))
        && (prior.timestamp + RATE_LIMIT <= now && fetched.Unreachable? ==>
              && outcome == UnreachableOutcome(retryCounter)
              && knownUrls == old(knownUrls)[href := prior] && devices == old(devices))
        && (prior.timestamp + RATE_LIMIT <= now && fetched.Fetched? ==>
              knownUrls == old(knownUrls)[href := KnownUrl(href, url.authentication, fetched.digest, now)])
        && (prior.timestamp + RATE_LIMIT <= now && fetched.Fetched? && fetched.payload.None? ==>
              outcome == ParseFailed && devices == old(devices))
        && (prior.timestamp + RATE_LIMIT <= now && fetched.Fetched? && fetched.payload.Some? ==>
              outcome.Loaded?)
      ensures !outcome.Loaded? ==> forall k :: k in old(devices) ==> unchanged(old(devices)[k])
      ensures var href := Normalise(url.href);
        outcome.Loaded? ==>
        && fetched.Fetched? && fetched.payload.Some?
        && (outcome.known <==>
              (if href in old(knownUrls) then old(knownUrls)[href].digest else "") == fetched.digest)
        && var things := Things(fetched.payload.value);
        && devices.Keys == old(devices).Keys + ThingIds(href, things)
        && (forall k :: k in old(devices) && (outcome.known || k !in ThingIds(href, things)) ==>
              devices[k] == old(devices)[k] && unchanged(old(devices)[k]))
        && (!outcome.known ==> forall k :: k in old(devices) && k in ThingIds(href, things) ==>
              var d := old(devices)[k];
              d.closing && d.ClosedSince())
        && (forall k :: k in ThingIds(href, things) && !(outcome.known && k in old(devices)) ==>
              fresh(devices[k]) && BuiltFrom(devices[k], k, href, url.authentication, things))
    {
      var href := Normalise(url.href);
      // An href seen for the first time counts as fetched at time 0 with an empty digest.
      var prior := if href in knownUrls then knownUrls[href] else KnownUrl(href, url.authentication, "", 0);
      if prior.timestamp + RATE_LIMIT > now {
        knownUrls := knownUrls[href := prior];
        return RateLimited;
      }
      match fetched {
        case Unreachable =>
          knownUrls := knownUrls[href := prior];
          if retryCounter >= MAX_RETRIES {
            return GaveUp;
          }
          return RetryScheduled(retryCounter + 1, RETRY_DELAY);
        case Fetched(digest, payload) =>
          outcome := StoreFetched(href, url.authentication, prior.digest == digest, digest, payload, now, readProperty);
      }
    }

    /**
     * The part of `loadThing` after a body arrived: the href's entry takes the new digest and
     * `now`, and a payload that parsed is reconciled with the registry.
     */
    method StoreFetched(href: string, authentication: Authentication, known: bool, digest: string,
                        payload: Option<Payload>, now: int, readProperty: (string, string) -> Option<Value>)
      returns (outcome: LoadOutcome)
      requires Valid()
      modifies this`knownUrls, this`devices, this`savedDevices, devices.Values
      ensures Valid()
      ensures savedDevices == old(savedDevices)
      ensures knownUrls == old(knownUrls)[href := KnownUrl(href, authentication, digest, now)]
      ensures payload.None? ==> outcome == ParseFailed && devices == old(devices)
      ensures payload.Some? ==> outcome == Loaded(known)
      ensures !outcome.Loaded? ==> forall k :: k in old(devices) ==> unchanged(old(devices)[k])
      ensures outcome.Loaded? ==>
        && payload.Some?
        && var things := Things(payload.value);
        && devices.Keys == old(devices).Keys + ThingIds(href, things)
        && (forall k :: k in old(devices) && (known || k !in ThingIds(href, things)) ==>
              devices[k] == old(devices)[k] && unchanged(old(devices)[k]))
        && (!known ==> forall k :: k in old(devices) && k in ThingIds(href, things) ==>
              var d := old(devices)[k];
              d.closing && d.ClosedSince())
        && (forall k :: k in ThingIds(href, things) && !(known && k in old(devices)) ==>
              fresh(devices[k]) && BuiltFrom(devices[k], k, href, authentication, things))
    {
      knownUrls := knownUrls[href := KnownUrl(href, authentication, digest, now)];
      if payload.None? {
        return ParseFailed;
      }
      ReconcileAll(href, authentication, Things(payload.value), known, readProperty);
      outcome := Loaded(known);
    }

    /** One device of `unloadThing`: closed, then removed internally. */
    method CloseAndRemove(id: string)
      requires Valid() && id in devices
      modifies this`devices, this`savedDevices
      modifies {devices[id]}`closing, {devices[id]}`pollDelay, {devices[id]}`outbox, {devices[id]}`socket
      ensures Valid()
      ensures devices == old(devices) - {id}
      ensures var d := old(devices)[id];
        && d.closing
        && d.socket == (if old(d.socket) == Open then Closing else old(d.socket))
        && d.pollDelay == (if old(d.socket) == NoSocket && d.scheduledUpdate then None else old(d.pollDelay))
        && d.outbox == old(d.outbox) + (if old(d.socket) == Open then [Messages.Close] else [])
        && d.State() == AfterClose(old(d.State()))
      ensures savedDevices == old(savedDevices) && knownUrls == old(knownUrls)
    {
      var device := devices[id];
      device.CloseWebSocket();
      var removed := RemoveThing(device, true);
      CloseTwiceIsCloseOnce(old(device.State()));
    }

    /**
     * `unloadThing`: a service went away. Every device served from that (normalised) URL is
     * closed and removed internally, and the URL is forgotten, so the next load fetches it.
     */
    method UnloadThing(url: string)
      requires Valid()
      modifies this`knownUrls, this`devices, this`savedDevices, devices.Values
      ensures Valid()
      ensures devices == map k | k in old(devices) && old(devices)[k].mdnsUrl != Normalise(url) :: old(devices)[k]
      ensures forall k :: k in old(devices) && old(devices)[k].mdnsUrl == Normalise(url) ==>
        var d := old(devices)[k];
        d.closing && d.ClosedSince()
      ensures forall k :: k in devices ==> unchanged(devices[k])
      ensures knownUrls == map h | h in old(knownUrls) && h != Normalise(url) :: old(knownUrls)[h]
      ensures savedDevices == old(savedDevices)
    {
      var target := Normalise(url);
      CloseServedFrom(target);
      knownUrls := map h | h in knownUrls && h != target :: knownUrls[h];
    }

    /**
     * The loop of `unloadThing` over the registry: a device whose mDNS URL is `target` is
     * closed and removed; every other device stays registered and untouched.
     */
    method CloseServedFrom(target: string)
      requires Valid()
      modifies this`devices, this`savedDevices, devices.Values
      ensures Valid()
      ensures savedDevices == old(savedDevices) && knownUrls == old(knownUrls)
      ensures forall k :: k in devices <==> k in old(devices) && old(devices)[k].mdnsUrl != target
      ensures forall k :: k in old(devices) ==>
        var d := old(devices)[k];
        if k in devices then devices[k] == d && unchanged(d) else d.closing && d.ClosedSince()
    {
      var todo := devices.Keys;
      ghost var registered := devices;
      while todo != {}
        invariant todo <= registered.Keys
        invariant Valid()
        invariant savedDevices == old(savedDevices) && knownUrls == old(knownUrls)
        invariant forall k :: k in registered ==> registered[k].id == k
        invariant forall k :: k in devices <==> k in registered && (k in todo || registered[k].mdnsUrl != target)
        invariant forall k :: k in registered ==>
          var d := registered[k];
          if k in devices then devices[k] == d && unchanged(d) else d.closing && d.ClosedSince()
        decreases todo
      {
        var id :| id in todo;
        if devices[id].mdnsUrl == target {
          CloseAndRemove(id);
        }
        todo := todo - {id};
      }
    }

    /** `unload`: every registered device stops (its sockets and poll timer wind down). */
    method Unload()
      requires Valid()
      modifies devices.Values
      ensures Valid()
      ensures forall k :: k in devices ==> devices[k].closing && devices[k].ClosedSince()
    {
      var todo := devices.Keys;
      while todo != {}
        invariant todo <= devices.Keys
        invariant Valid()
        invariant forall k :: k in devices ==>
          var d := devices[k];
          if k in todo then unchanged(d) else d.closing && d.ClosedSince()
        decreases todo
      {
        var id :| id in todo;
        devices[id].CloseWebSocket();
        todo := todo - {id};
      }
    }
  }

  /**
   * The add-on's entry point: a fresh adapter whose poll interval is the stored number of
   * seconds in milliseconds (the default when none is stored), the configuration to write
   * back when a legacy entry was migrated, and the URL entries to load, in stored order.
   */
  method LoadAdapter(config: StoredConfig, supportsSaving: bool)
    returns (adapter: ThingURLAdapter, rewritten: Option<StoredConfig>, toLoad: seq<UrlEntry>)
    ensures fresh(adapter) && adapter.Valid() && adapter.supportsSaving == supportsSaving
    ensures adapter.knownUrls == map[] && adapter.savedDevices == {} && adapter.devices == map[]
    ensures adapter.pollInterval ==
      if config.pollInterval.Seconds? then config.pollInterval.seconds * 1000 else POLL_INTERVAL
    ensures rewritten.Some? <==> exists i :: 0 <= i < |config.urls| && config.urls[i].Legacy?
    ensures |toLoad| == |config.urls|
    ensures forall i :: 0 <= i < |toLoad| ==> toLoad[i] == Migrated(config.urls[i])
  {
    adapter := new ThingURLAdapter(supportsSaving);
    rewritten, toLoad := adapter.ApplyConfig(config);
  }
}

=== FILE: config.dfy ===
/**
 * The timing constants of thing-url-adapter.js and the start-up step of
 * `loadThingURLAdapter` that reads the stored configuration: the poll interval is given in
 * seconds and kept in milliseconds, and legacy string URL entries become objects.
 */
module Config {
  import opened Values
  import opened Headers

  const PING_INTERVAL: int := 30 * 1000
  const POLL_INTERVAL: int := 5 * 1000
  const WS_INITIAL_BACKOFF: int := 1000
  const WS_MAX_BACKOFF: int := 30 * 1000

  /** The stored poll interval: a JSON number of seconds, or anything else. */
  datatype PollSetting = Seconds(seconds: int) | NotANumber

  /** A configured URL: `{href, authentication}`. */
  datatype UrlEntry = UrlEntry(href: string, authentication: Authentication)

  /** A stored `urls` entry: a legacy bare string, or an entry object. */
  datatype ConfigEntry = Legacy(url: string) | Structured(entry: UrlEntry)

  datatype StoredConfig = StoredConfig(pollInterval: PollSetting, urls: seq<ConfigEntry>)

  const NO_AUTHENTICATION := Authentication(Some("none"), None)

  lemma TimingConstants()
    ensures WS_INITIAL_BACKOFF == 1000 < WS_MAX_BACKOFF == 30000
    ensures POLL_INTERVAL == 5000 && PING_INTERVAL == 30000
  {
  }

  /** `if (typeof config.pollInterval === 'number') pollInterval = config.pollInterval * 1000`. */
  function PollIntervalMs(setting: PollSetting, current: int): int {
    match setting
    case Seconds(s) => s * 1000
    case NotANumber => current
  }

  /** One migrated entry. */
  function Migrated(e: ConfigEntry): UrlEntry {
    match e
    case Legacy(s) => UrlEntry(s, NO_AUTHENTICATION)
    case Structured(u) => u
  }

  /**
   * The migration loop: each string `s` becomes `{href: s, authentication: {method: 'none'}}`,
   * objects are kept as they are, in the same order; `modified` records that a string was seen.
   */
  method MigrateUrls(entries: seq<ConfigEntry>) returns (urls: seq<UrlEntry>, modified: bool)
    ensures |urls| == |entries|
    ensures forall i :: 0 <= i < |entries| && entries[i].Structured? ==> urls[i] == entries[i].entry
    ensures forall i :: 0 <= i < |entries| && entries[i].Legacy? ==>
      urls[i] == UrlEntry(entries[i].url, NO_AUTHENTICATION)
    ensures modified <==> exists i :: 0 <= i < |entries| && entries[i].Legacy?
  {
    urls := [];
    modified := false;
    var i := 0;
    while i < |entries|
      invariant 0 <= i <= |entries|
      invariant |urls| == i
      invariant forall k :: 0 <= k < i ==> urls[k] == Migrated(entries[k])
      invariant modified <==> exists k :: 0 <= k < i && entries[k].Legacy?
    {
      match entries[i] {
        case Legacy(s) =>
          urls := urls + [UrlEntry(s, NO_AUTHENTICATION)];
          modified := true;
        case Structured(u) =>
          urls := urls + [u];
      }
      i := i + 1;
    }
  }

  /**
   * The whole configuration step: the new poll interval, the configuration to write back
   * (only when a legacy entry was migrated) and the URL entries to load, in order.
   */
  method ReadConfig(config: StoredConfig, currentPollInterval: int)
    returns (pollInterval: int, rewritten: Option<StoredConfig>, toLoad: seq<UrlEntry>)
    ensures config.pollInterval.Seconds? ==> pollInterval == config.pollInterval.seconds * 1000
    ensures config.pollInterval.NotANumber? ==> pollInterval == currentPollInterval
    ensures rewritten.Some? <==> exists i :: 0 <= i < |config.urls| && config.urls[i].Legacy?
    ensures rewritten.Some? ==> rewritten.value.pollInterval == config.pollInterval
    ensures rewritten.Some? ==> |rewritten.value.urls| == |config.urls|
    ensures rewritten.Some? ==>
      forall i :: 0 <= i < |config.urls| ==> rewritten.value.urls[i] == Structured(Migrated(config.urls[i]))
    ensures |toLoad| == |config.urls|
    ensures forall i :: 0 <= i < |toLoad| ==> toLoad[i] == Migrated(config.urls[i])
  {
    pollInterval := PollIntervalMs(config.pollInterval, currentPollInterval);
    var urls, modified := MigrateUrls(config.urls);
    toLoad := urls;
    if modified {
      rewritten := Some(config.(urls := seq(|urls|, i requires 0 <= i < |urls| => Structured(urls[i]))));
    } else {
      rewritten := None;
    }
  }
}

=== FILE: descriptions.dfy ===
/**
 * Thing descriptions as the device constructor reads them, and the construction-time
 * decisions taken on their links: which links the gateway must proxy, which URL a
 * property is read from, and how the thing's own links set the actions, events and
 * WebSocket endpoints.
 */
module Descriptions {
  import opened Values
  import opened Urls

  /** A link `{rel?, href, mediaType?}`, with the `proxy` flag the device may add. */
  datatype Link = Link(rel: Option<string>, href: string, mediaType: Option<string>, proxy: bool)

  /** An action or event description; only its optional `links` array is acted on. */
  datatype Interaction = Interaction(links: Option<seq<Link>>)

  datatype PropertyDescription = PropertyDescription(href: Option<string>, links: Option<seq<Link>>)

  /** A thing description: optional `href`, the three interaction maps and optional `links`. */
  datatype Description = Description(
    href: Option<string>,
    properties: map<string, PropertyDescription>,
    actions: map<string, Interaction>,
    events: map<string, Interaction>,
    links: Option<seq<Link>>)

  function LinksOf(links: Option<seq<Link>>): seq<Link> {
    if links.Some? then links.value else []
  }

  /** A link that is not an absolute http(s) URL is marked for proxying; others are left alone. */
  function FlagProxy(l: Link): (r: Link)
    ensures r.rel == l.rel && r.href == l.href && r.mediaType == l.mediaType
    ensures r.proxy <==> l.proxy || !IsAbsoluteHttp(l.href)
    ensures IsAbsoluteHttp(l.href) ==> r == l
  {
    if !IsAbsoluteHttp(l.href) then l.(proxy := true) else l
  }

  /** `links.map(...)` over an action's or event's links. */
  function FlagLinks(links: seq<Link>): (r: seq<Link>)
    ensures |r| == |links|
    ensures forall i :: 0 <= i < |links| ==>
      && r[i].rel == links[i].rel && r[i].href == links[i].href && r[i].mediaType == links[i].mediaType
      && (r[i].proxy <==> links[i].proxy || !IsAbsoluteHttp(links[i].href))
    ensures forall i :: 0 <= i < |links| && IsAbsoluteHttp(links[i].href) ==> r[i] == links[i]
  {
    seq(|links|, i requires 0 <= i < |links| => FlagProxy(links[i]))
  }

  function FlagInteraction(d: Interaction): Interaction {
    match d.links
    case None => d
    case Some(ls) => d.(links := Some(FlagLinks(ls)))
  }

  /** `!link.rel || link.rel === 'property'`. */
  predicate IsPropertyLink(l: Link) {
    l.rel.None? || l.rel == Some("") || l.rel == Some("property")
  }

  /** The index of the first property link, if any. */
  function FirstPropertyLink(links: seq<Link>): (r: Option<nat>)
    ensures r.Some? ==> r.value < |links| && IsPropertyLink(links[r.value])
    ensures r.Some? ==> forall j :: 0 <= j < r.value ==> !IsPropertyLink(links[j])
    ensures r.None? ==> forall j :: 0 <= j < |links| ==> !IsPropertyLink(links[j])
  {
    if links == [] then None
    else if IsPropertyLink(links[0]) then Some(0)
    else match FirstPropertyLink(links[1..]) {
      case None => None
      case Some(k) => Some(k + 1)
    }
  }

  /**
   * The URL a property is read from: `baseHref` plus the href of its first property link;
   * when that is missing or empty (both falsy), `baseHref` plus the description's own
   * non-empty `href`; otherwise the property is skipped (`None`).
   */
  function PropertyUrl(baseHref: string, pd: PropertyDescription): Option<string> {
    var links := LinksOf(pd.links);
    var fromLink := match FirstPropertyLink(links) {
      case Some(k) => baseHref + links[k].href
      case None => ""
    };
    if fromLink != "" then Some(fromLink)
    else if pd.href.Some? && pd.href.value != "" then Some(baseHref + pd.href.value)
    else None
  }

  /** What `PropertyUrl` selects, stated without the search. */
  lemma PropertyUrlChoice(baseHref: string, pd: PropertyDescription)
    ensures forall k :: (0 <= k < |LinksOf(pd.links)| && IsPropertyLink(LinksOf(pd.links)[k]) &&
      (forall j :: 0 <= j < k ==> !IsPropertyLink(LinksOf(pd.links)[j])) &&
      baseHref + LinksOf(pd.links)[k].href != "") ==>
        PropertyUrl(baseHref, pd) == Some(baseHref + LinksOf(pd.links)[k].href)
    ensures (forall k :: 0 <= k < |LinksOf(pd.links)| ==> !IsPropertyLink(LinksOf(pd.links)[k])) ==>
      PropertyUrl(baseHref, pd) ==
        (if pd.href.Some? && pd.href.value != "" then Some(baseHref + pd.href.value) else None)
    ensures PropertyUrl(baseHref, pd).Some? ==> PropertyUrl(baseHref, pd).value != ""
    ensures PropertyUrl(baseHref, pd).None? ==> pd.href.None? || pd.href == Some("")
  {
  }

  /** The constructor's search for a property's URL, with its early `break`. */
  method SelectPropertyUrl(baseHref: string, pd: PropertyDescription) returns (url: Option<string>)
    ensures url == PropertyUrl(baseHref, pd)
  {
    // An unassigned `propertyUrl` and an empty one are both falsy.
    var propertyUrl := "";
    if pd.links.Some? {
      var links := pd.links.value;
      var i := 0;
      while i < |links|
        invariant 0 <= i <= |links|
        invariant forall j :: 0 <= j < i ==> !IsPropertyLink(links[j])
      {
        if IsPropertyLink(links[i]) {
          propertyUrl := baseHref + links[i].href;
          assert FirstPropertyLink(links) == Some(i) by {
            PropertyUrlChoice(baseHref, pd);
          }
          break;
        }
        i := i + 1;
      }
      assert i == |links| ==> FirstPropertyLink(links).None?;
    }
    if propertyUrl == "" {
      if pd.href.None? || pd.href.value == "" {
        return None;
      }
      propertyUrl := baseHref + pd.href.value;
    }
    url := Some(propertyUrl);
  }

  /** What the thing's own `links` array yields. */
  datatype Classification = Classification(
    actionsUrl: Option<string>,
    eventsUrl: Option<string>,
    wsUrl: Option<string>,
    links: seq<Link>)

  const Unclassified := Classification(None, None, None, [])

  /** One iteration of the constructor's loop over the thing's links. */
  function ClassifyStep(c: Classification, baseHref: string, l: Link): Classification {
    if l.rel == Some("actions") then c.(actionsUrl := Some(baseHref + l.href))
    else if l.rel == Some("events") then c.(eventsUrl := Some(baseHref + l.href))
    else if l.rel == Some("properties") then c
    else if l.rel == Some("alternate") then
      if l.mediaType == Some("text/html") then c.(links := c.links + [FlagProxy(l)])
      else if IsWebSocketUrl(l.href) then c.(wsUrl := Some(l.href))
      else c.(links := c.links + [l])
    else c.(links := c.links + [FlagProxy(l)])
  }

  /** The loop over a whole links array, left to right. */
  function Classify(baseHref: string, links: seq<Link>): Classification
    decreases |links|
  {
    if links == [] then Unclassified
    else ClassifyStep(Classify(baseHref, links[..|links| - 1]), baseHref, links[|links| - 1])
  }

  /** An `alternate` link with a ws(s) scheme that is not an HTML page: the push endpoint. */
  predicate IsPushEndpoint(l: Link) {
    l.rel == Some("alternate") && l.mediaType != Some("text/html") && IsWebSocketUrl(l.href)
  }

  /** The links kept in the device's `links`: all but endpoints and `properties`. */
  predicate Kept(l: Link) {
    l.rel != Some("actions") && l.rel != Some("events") && l.rel != Some("properties") &&
    !IsPushEndpoint(l)
  }

  /** How a kept link is stored: a non-HTML alternate unchanged, every other one proxy-flagged. */
  function KeptForm(l: Link): Link {
    if l.rel == Some("alternate") && l.mediaType != Some("text/html") then l else FlagProxy(l)
  }

  /** The constructor's loop over the thing's links. */
  method ClassifyLinks(baseHref: string, links: seq<Link>) returns (c: Classification)
    ensures c == Classify(baseHref, links)
  {
    c := Unclassified;
    var i := 0;
    while i < |links|
      invariant 0 <= i <= |links|
      invariant c == Classify(baseHref, links[..i])
    {
      var link := links[i];
      if link.rel == Some("actions") {
        c := c.(actionsUrl := Some(baseHref + link.href));
      } else if link.rel == Some("events") {
        c := c.(eventsUrl := Some(baseHref + link.href));
      } else if link.rel == Some("properties") {
        // implicit, nothing to record
      } else if link.rel == Some("alternate") {
        if link.mediaType == Some("text/html") {
          c := c.(links := c.links + [FlagProxy(link)]);
        } else if IsWebSocketUrl(link.href) {
          c := c.(wsUrl := Some(link.href));
        } else {
          c := c.(links := c.links + [link]);
        }
      } else {
        c := c.(links := c.links + [FlagProxy(link)]);
      }
      assert links[..i + 1][..i] == links[..i];
      i := i + 1;
    }
    assert links[..i] == links;
  }

  /**
   * The push endpoint is the href of the last push-endpoint link, and exists exactly when
   * such a link does.
   */
  lemma {:induction false} ClassifyPushEndpoint(baseHref: string, links: seq<Link>)
    ensures Classify(baseHref, links).wsUrl.Some? <==>
      exists i :: 0 <= i < |links| && IsPushEndpoint(links[i])
    ensures Classify(baseHref, links).wsUrl.Some? ==>
      exists i :: 0 <= i < |links| && IsPushEndpoint(links[i]) &&
        Classify(baseHref, links).wsUrl.value == links[i].href &&
        forall j :: i < j < |links| ==> !IsPushEndpoint(links[j])
    decreases |links|
  {
    if links != [] {
      var n := |links| - 1;
      var init := links[..n];
      ClassifyPushEndpoint(baseHref, init);
      assert forall i :: 0 <= i < n ==> init[i] == links[i];
      if IsPushEndpoint(links[n]) {
        assert Classify(baseHref, links).wsUrl == Some(links[n].href);
      } else {
        assert Classify(baseHref, links).wsUrl == Classify(baseHref, init).wsUrl;
      }
    }
  }

  /** The actions endpoint comes from the last link with the `actions` relation, if there is one. */
  lemma {:induction false} ClassifyActionsUrl(baseHref: string, links: seq<Link>)
    ensures Classify(baseHref, links).actionsUrl.Some? <==>
      exists i :: 0 <= i < |links| && links[i].rel == Some("actions")
    ensures Classify(baseHref, links).actionsUrl.Some? ==>
      exists i :: 0 <= i < |links| && links[i].rel == Some("actions") &&
        Classify(baseHref, links).actionsUrl.value == baseHref + links[i].href &&
        forall j :: i < j < |links| ==> links[j].rel != Some("actions")
    decreases |links|
  {
    if links != [] {
      var n := |links| - 1;
      var init := links[..n];
      ClassifyActionsUrl(baseHref, init);
      assert forall i :: 0 <= i < n ==> init[i] == links[i];
      if links[n].rel == Some("actions") {
        assert Classify(baseHref, links).actionsUrl == Some(baseHref + links[n].href);
      } else {
        assert Classify(baseHref, links).actionsUrl == Classify(baseHref, init).actionsUrl;
      }
    }
  }

  /** The events endpoint comes from the last link with the `events` relation, if there is one. */
  lemma {:induction false} ClassifyEventsUrl(baseHref: string, links: seq<Link>)
    ensures Classify(baseHref, links).eventsUrl.Some? <==>
      exists i :: 0 <= i < |links| && links[i].rel == Some("events")
    ensures Classify(baseHref, links).eventsUrl.Some? ==>
      exists i :: 0 <= i < |links| && links[i].rel == Some("events") &&
        Classify(baseHref, links).eventsUrl.value == baseHref + links[i].href &&
        forall j :: i < j < |links| ==> links[j].rel != Some("events")
    decreases |links|
  {
    if links != [] {
      var n := |links| - 1;
      var init := links[..n];
      ClassifyEventsUrl(baseHref, init);
      assert forall i :: 0 <= i < n ==> init[i] == links[i];
      if links[n].rel == Some("events") {
        assert Classify(baseHref, links).eventsUrl == Some(baseHref + links[n].href);
      } else {
        assert Classify(baseHref, links).eventsUrl == Classify(baseHref, init).eventsUrl;
      }
    }
  }

  /**
   * Exactly the kept links end up in the device's links, in their stored form: every kept
   * link is there, and everything there is a kept link. In particular an HTML alternate is
   * kept even with a ws(s) href, and a push endpoint never is.
   */
  lemma {:induction false} ClassifyKeptLinks(baseHref: string, links: seq<Link>)
    ensures forall i :: 0 <= i < |links| && Kept(links[i]) ==>
      KeptForm(links[i]) in Classify(baseHref, links).links
    ensures forall l :: l in Classify(baseHref, links).links ==>
      exists i :: 0 <= i < |links| && Kept(links[i]) && l == KeptForm(links[i])
    ensures |Classify(baseHref, links).links| <= |links|
    decreases |links|
  {
    if links != [] {
      var n := |links| - 1;
      var init := links[..n];
      ClassifyKeptLinks(baseHref, init);
      assert forall i :: 0 <= i < n ==> init[i] == links[i];
      var c0 := Classify(baseHref, init);
      var c := Classify(baseHref, links);
      if Kept(links[n]) {
        assert c.links == c0.links + [KeptForm(links[n])];
      } else {
        assert c.links == c0.links;
      }
    }
  }

  /** What one link contributes to the device's links: its stored form if it is kept. */
  function KeptPart(l: Link): seq<Link> {
    if Kept(l) then [KeptForm(l)] else []
  }

  /** The kept links of a sequence in their stored form, in order: a filter of the sequence. */
  function KeptLinks(links: seq<Link>): seq<Link>
    decreases |links|
  {
    if links == [] then [] else KeptLinks(links[..|links| - 1]) + KeptPart(links[|links| - 1])
  }

  /** The device's links are exactly the kept links of the description, in their original order. */
  lemma {:induction false} ClassifyKeepsOrder(baseHref: string, links: seq<Link>)
    ensures Classify(baseHref, links).links == KeptLinks(links)
    decreases |links|
  {
    if links != [] {
      var n := |links| - 1;
      ClassifyKeepsOrder(baseHref, links[..n]);
      assert Classify(baseHref, links).links == Classify(baseHref, links[..n]).links + KeptPart(links[n]);
    }
  }
}

=== FILE: device.dfy ===
/**
 * The per-device synchronisation engine (src/ThingURLDevice.ts). A device works in push
 * mode when its description names a WebSocket endpoint and in pull (polling) mode
 * otherwise. Socket events, timers and fetch results are inputs to its methods: the
 * environment calls `OnOpen`, `OnMessage`, `OnCloseOrError` and `OnReconnectTimer` as the
 * socket and its reconnect timer fire, and `Poll` as the poll timer fires.
 */
module Device {
  import opened Values
  import opened Urls
  import opened Headers
  import opened Config
  import opened Descriptions
  import opened Messages
  import opened Property

  /**
   * `this.ws` and its ready state: no socket, a socket not yet open, an open one, and one
   * asked to close whose close event has not arrived yet.
   */
  datatype Socket = NoSocket | Connecting | Open | Closing

  /** What one poll cycle reads: the properties whose fetch succeeded, and the two lists. */
  datatype PollInput = PollInput(
    propertyValues: map<string, Value>,
    actionList: Option<seq<ActionReport>>,
    eventList: Option<seq<(string, EventPayload)>>)

  /** The query suffix that carries a bearer token on the socket URL; other methods add none. */
  function AuthSuffix(wsUrl: string, auth: Authentication): string {
    if IsJwt(auth) then (if '?' in wsUrl then "&jwt=" else "?jwt=") + Render(auth.token) else ""
  }

  /** The URL `createWebSocket` opens. */
  function SocketUrl(wsUrl: string, auth: Authentication): string {
    wsUrl + AuthSuffix(wsUrl, auth)
  }

  /**
   * The socket URL keeps the endpoint as its prefix; with `jwt` it ends in `jwt=<token>`
   * joined by `&` when the endpoint already has a query and by `?` otherwise, so it has a
   * query either way; with any other method it is the endpoint itself.
   */
  lemma SocketUrlShape(wsUrl: string, auth: Authentication)
    ensures wsUrl <= SocketUrl(wsUrl, auth)
    ensures !IsJwt(auth) ==> SocketUrl(wsUrl, auth) == wsUrl
    ensures IsJwt(auth) ==> '?' in SocketUrl(wsUrl, auth)
    ensures IsJwt(auth) && '?' !in wsUrl ==> SocketUrl(wsUrl, auth)[|wsUrl|] == '?'
    ensures IsJwt(auth) && '?' in wsUrl ==> SocketUrl(wsUrl, auth)[|wsUrl|] == '&'
    ensures IsJwt(auth) ==>
      SocketUrl(wsUrl, auth)[|wsUrl| + 1..] == "jwt=" + Render(auth.token)
  {
    var u := SocketUrl(wsUrl, auth);
    if IsJwt(auth) {
      if '?' in wsUrl {
        var k :| 0 <= k < |wsUrl| && wsUrl[k] == '?';
        assert u[k] == '?';
      } else {
        assert u[|wsUrl|] == '?';
      }
    }
  }

  function Min(a: int, b: int): int {
    if a < b then a else b
  }

  /** The backoff used after one more failed attempt: doubled, capped at the maximum. */
  function NextBackoff(b: int): (r: int)
    ensures WS_INITIAL_BACKOFF <= b <= WS_MAX_BACKOFF ==> b <= r <= WS_MAX_BACKOFF
  {
    Min(b * 2, WS_MAX_BACKOFF)
  }

  function Pow2(n: nat): nat {
    if n == 0 then 1 else 2 * Pow2(n - 1)
  }

  /** The backoff after `n` reconnect timers fired since the last successful open. */
  function BackoffAfter(n: nat): int {
    if n == 0 then WS_INITIAL_BACKOFF else NextBackoff(BackoffAfter(n - 1))
  }

  /** After `n` consecutive failures the delay is `min(initial * 2^n, max)`. */
  lemma {:induction false} BackoffClosedForm(n: nat)
    ensures BackoffAfter(n) == Min(WS_INITIAL_BACKOFF * Pow2(n), WS_MAX_BACKOFF)
    ensures WS_INITIAL_BACKOFF <= BackoffAfter(n) <= WS_MAX_BACKOFF
  {
    if n > 0 {
      BackoffClosedForm(n - 1);
      var p := Pow2(n - 1);
      assert Pow2(n) == 2 * p;
      assert WS_INITIAL_BACKOFF * Pow2(n) == 2 * (WS_INITIAL_BACKOFF * p);
    }
  }

  /**
   * The dedup identity of an event: `data.id` when the data is an object with an `id`,
   * else `${name}-${timestamp}`, taken before a missing timestamp is defaulted.
   */
  function EventId(name: string, e: EventPayload): Value {
    if e.data.Obj? && "id" in e.data.fields then e.data.fields["id"]
    else Text(name + "-" + Render(e.timestamp))
  }

  /** Events without `id` and without `timestamp` share one identity per event name. */
  lemma AnonymousEventsCollapse(name: string, d1: Value, d2: Value)
    requires !(d1.Obj? && "id" in d1.fields) && !(d2.Obj? && "id" in d2.fields)
    ensures EventId(name, EventPayload(d1, None)) == EventId(name, EventPayload(d2, None))
            == Text(name + "-undefined")
  {
  }

  /** The notice for a delivered event: its data or `null`, its timestamp or `now`. */
  function EventNotice(name: string, e: EventPayload, now: string): Notice {
    EventRaised(name, if Truthy(e.data) then e.data else Null,
                if e.timestamp.Some? then e.timestamp.value else now)
  }

  /** The identities of a batch of events. */
  function EventIds(events: seq<(string, EventPayload)>): (ids: set<Value>)
    ensures forall i :: 0 <= i < |events| ==> EventId(events[i].0, events[i].1) in ids
    decreases |events|
  {
    if events == [] then {}
    else
      var n := |events| - 1;
      EventIds(events[..n]) + {EventId(events[n].0, events[n].1)}
  }

  /** Every identity in a batch's set belongs to one of its events. */
  lemma {:induction false} EventIdsOnlyListed(events: seq<(string, EventPayload)>)
    ensures forall v :: v in EventIds(events) ==> exists i :: 0 <= i < |events| && EventId(events[i].0, events[i].1) == v
    decreases |events|
  {
    if events != [] {
      var n := |events| - 1;
      var prefix := events[..n];
      EventIdsOnlyListed(prefix);
      forall v | v in EventIds(events)
        ensures exists i :: 0 <= i < |events| && EventId(events[i].0, events[i].1) == v
      {
        if v in EventIds(prefix) {
          var i :| 0 <= i < n && EventId(prefix[i].0, prefix[i].1) == v;
          assert prefix[i] == events[i];
        } else {
          assert EventId(events[n].0, events[n].1) == v;
        }
      }
    }
  }

  /**
   * The notices a batch of events produces, in order, when the identities in `seen` have
   * already been notified: an event is delivered unless its identity was seen before it.
   */
  function NewEventNotices(seen: set<Value>, events: seq<(string, EventPayload)>, now: string): seq<Notice>
    decreases |events|
  {
    if events == [] then []
    else
      var n := |events| - 1;
      var (name, e) := events[n];
      NewEventNotices(seen, events[..n], now) +
        (if EventId(name, e) in seen + EventIds(events[..n]) then [] else [EventNotice(name, e, now)])
  }

  /** Each new identity is notified exactly once, and nothing already seen is notified. */
  lemma {:induction false} EventNoticesCount(seen: set<Value>, events: seq<(string, EventPayload)>, now: string)
    ensures |NewEventNotices(seen, events, now)| == |EventIds(events) - seen|
    decreases |events|
  {
    if events != [] {
      var n := |events| - 1;
      var init := events[..n];
      var id := EventId(events[n].0, events[n].1);
      EventNoticesCount(seen, init, now);
      assert EventIds(events) == EventIds(init) + {id};
      if id in seen + EventIds(init) {
        assert EventIds(events) - seen == EventIds(init) - seen;
      } else {
        assert EventIds(events) - seen == (EventIds(init) - seen) + {id};
      }
    }
  }

  /** A batch delivered again, on a duplicate message or an overlapping poll, notifies nothing. */
  lemma {:induction false} RedeliveryIsSilent(seen: set<Value>, events: seq<(string, EventPayload)>, now: string)
    requires EventIds(events) <= seen
    ensures NewEventNotices(seen, events, now) == []
    decreases |events|
  {
    if events != [] {
      var n := |events| - 1;
      assert EventIds(events[..n]) <= EventIds(events);
      RedeliveryIsSilent(seen, events[..n], now);
    }
  }

  /** An action after a status report for its href. */
  function Updated(a: Action, r: ActionReport): Action {
    a.(status := r.status, timeRequested := r.timeRequested, timeCompleted := r.timeCompleted)
  }

  /**
   * Status reports applied in order to the tracked actions, with the notices they raise.
   * A report for an untracked href is ignored; with `onlyOnChange` (polling) a report whose
   * status is strictly equal to the tracked one is ignored too.
   */
  function Track(actions: map<string, Action>, reports: seq<ActionReport>, onlyOnChange: bool)
    : (map<string, Action>, seq<Notice>)
    decreases |reports|
  {
    if reports == [] then (actions, [])
    else
      var n := |reports| - 1;
      var (acts, notices) := Track(actions, reports[..n], onlyOnChange);
      var r := reports[n];
      if r.href in acts && (!onlyOnChange || !StrictlyEqual(r.status, acts[r.href].status)) then
        (acts[r.href := Updated(acts[r.href], r)], notices + [ActionChanged(Updated(acts[r.href], r))])
      else (acts, notices)
  }

  /**
   * Reports never add or drop a tracked action, never touch one they do not name, never
   * change an action's id, name or input, and raise at most one notice each.
   */
  lemma {:induction false} TrackKeepsActions(actions: map<string, Action>, reports: seq<ActionReport>, onlyOnChange: bool)
    ensures Track(actions, reports, onlyOnChange).0.Keys == actions.Keys
    ensures forall h :: h in actions ==>
      var a := Track(actions, reports, onlyOnChange).0[h];
      a.id == actions[h].id && a.name == actions[h].name && a.input == actions[h].input
    ensures forall h :: h in actions && (forall j :: 0 <= j < |reports| ==> reports[j].href != h) ==>
      Track(actions, reports, onlyOnChange).0[h] == actions[h]
    ensures |Track(actions, reports, onlyOnChange).1| <= |reports|
    decreases |reports|
  {
    if reports != [] {
      var n := |reports| - 1;
      TrackKeepsActions(actions, reports[..n], onlyOnChange);
      forall h | h in actions && (forall j :: 0 <= j < |reports| ==> reports[j].href != h)
        ensures forall j :: 0 <= j < n ==> reports[..n][j].href != h
      {
      }
    }
  }

  /**
   * The status of a tracked action ends up as the status of the last report naming it, in
   * both modes: when polling skips that report, the status was already strictly equal.
   */
  lemma {:induction false} TrackLastReportWins(actions: map<string, Action>, reports: seq<ActionReport>,
                                               onlyOnChange: bool, h: string, i: nat)
    requires h in actions && i < |reports| && reports[i].href == h
    requires forall j :: i < j < |reports| ==> reports[j].href != h
    ensures var tracked := Track(actions, reports, onlyOnChange).0;
      h in tracked && tracked[h].status == reports[i].status
    decreases |reports|
  {
    TrackKeepsActions(actions, reports, onlyOnChange);
    var n := |reports| - 1;
    var init := reports[..n];
    TrackKeepsActions(actions, init, onlyOnChange);
    if i < n {
      assert init[i] == reports[i];
      TrackLastReportWins(actions, init, onlyOnChange, h, i);
    }
  }

  /** `action.name === actionName && action.id === actionId`. */
  predicate Matches(a: Action, actionId: string, actionName: string) {
    a.name == actionName && a.id == actionId
  }

  /** The property set a description yields, given which initial reads succeed. */
  predicate Loaded(baseHref: string, pd: PropertyDescription, name: string,
                   readProperty: (string, string) -> Option<Value>)
  {
    PropertyUrl(baseHref, pd).Some? && readProperty(PropertyUrl(baseHref, pd).value, name).Some?
  }

  /**
   * The initial property objects: one per described property that has a URL and whose first
   * read succeeded, holding the value read and having reported it once.
   */
  method LoadProperties(baseHref: string, described: map<string, PropertyDescription>,
                        readProperty: (string, string) -> Option<Value>)
    returns (properties: map<string, ThingURLProperty>)
    ensures properties.Keys == set n | n in described && Loaded(baseHref, described[n], n, readProperty)
    ensures forall n :: n in properties ==>
      && fresh(properties[n])
      && properties[n].name == n
      && properties[n].url == PropertyUrl(baseHref, described[n]).value
      && properties[n].value == readProperty(properties[n].url, n).value
      && properties[n].notified == [properties[n].value]
  {
    properties := map[];
    var todo := described.Keys;
    while todo != {}
      invariant todo <= described.Keys
      invariant properties.Keys ==
        set n | n in described && n !in todo && Loaded(baseHref, described[n], n, readProperty)
      invariant forall n :: n in properties ==>
        && fresh(properties[n])
        && properties[n].name == n
        && properties[n].url == PropertyUrl(baseHref, described[n]).value
        && properties[n].value == readProperty(properties[n].url, n).value
        && properties[n].notified == [properties[n].value]
      decreases todo
    {
      var name :| name in todo;
      var propertyUrl := SelectPropertyUrl(baseHref, described[name]);
      if propertyUrl.Some? {
        var read := readProperty(propertyUrl.value, name);
        if read.Some? {
          var property := new ThingURLProperty(name, propertyUrl.value, described[name], read.value);
          properties := properties[name := property];
        }
      }
      todo := todo - {name};
    }
  }

  /** A snapshot of everything about a device that changes after construction. */
  datatype DeviceState = DeviceState(
    socket: Socket, socketUrl: Option<string>, wsBackoff: int, pinging: bool, reconnectDelay: Option<int>,
    scheduledUpdate: bool, pollDelay: Option<int>, closing: bool, notifiedEvents: set<Value>,
    requestedActions: map<string, Action>, log: seq<Notice>, outbox: seq<Outbound>)

  /**
   * What `closeWebSocket` leaves of a device: closing; an open socket sent a close request
   * and closing; without a socket, a stored poll timer cancelled; nothing else changed.
   */
  function AfterClose(s: DeviceState): DeviceState {
    s.(closing := true,
       socket := if s.socket == Open then Closing else s.socket,
       outbox := s.outbox + if s.socket == Open then [Close] else [],
       pollDelay := if s.socket == NoSocket && s.scheduledUpdate then None else s.pollDelay)
  }

  /**
   * Closing twice is closing once: the second close finds the socket no longer open, so no
   * second close request goes out, as unloading a service does (close, then remove).
   */
  lemma CloseTwiceIsCloseOnce(s: DeviceState)
    ensures AfterClose(AfterClose(s)) == AfterClose(s)
    ensures Close in AfterClose(s).outbox[|s.outbox|..] <==> s.socket == Open
  {
    assert AfterClose(s).outbox[|s.outbox|..] == if s.socket == Open then [Close] else [];
  }

  class ThingURLDevice {
    const id: string
    const url: string
    const mdnsUrl: string
    const authentication: Authentication
    const baseHref: string
    const actionsUrl: Option<string>
    const eventsUrl: Option<string>
    const wsUrl: Option<string>
    const links: seq<Link>
    const actionDescriptions: map<string, Interaction>
    const eventDescriptions: map<string, Interaction>
    const properties: map<string, ThingURLProperty>
    /** The description the device was built from. */
    ghost const source: Description

    var socket: Socket
    /** The URL of the last socket created. */
    var socketUrl: Option<string>
    var wsBackoff: int
    /** Whether the keepalive ping interval is running. */
    var pinging: bool
    /** A pending reconnect timer and its delay. */
    var reconnectDelay: Option<int>
    /** Whether a poll timer handle has ever been stored (`this.scheduledUpdate`). */
    var scheduledUpdate: bool
    /** A pending poll timer and its delay. */
    var pollDelay: Option<int>
    var closing: bool
    var notifiedEvents: set<Value>
    /** Tracked actions by the href the thing gave them. */
    var requestedActions: map<string, Action>
    /** Connected, action and event notices, in order. */
    var log: seq<Notice>
    /** Messages sent over the socket, in order. */
    var outbox: seq<Outbound>

    /** Properties are keyed by their own names; this is fixed at construction. */
    predicate KeyedByName() {
      forall n :: n in properties ==> properties[n].name == n
    }

    /**
     * The backoff stays within its bounds and the two modes exclude each other: pull mode
     * never has a socket or a reconnect timer, push mode never polls.
     */
    ghost predicate Valid()
      reads this
    {
      && WS_INITIAL_BACKOFF <= wsBackoff <= WS_MAX_BACKOFF
      && (wsUrl.None? ==> socket == NoSocket && reconnectDelay.None? && !pinging)
      && (wsUrl.Some? ==> pollDelay.None? && !scheduledUpdate)
    }

    predicate PushMode() {
      wsUrl.Some?
    }

    function State(): DeviceState
      reads this
    {
      DeviceState(socket, socketUrl, wsBackoff, pinging, reconnectDelay, scheduledUpdate, pollDelay, closing,
                  notifiedEvents, requestedActions, log, outbox)
    }

    /** Since the old state the device went through `closeWebSocket` and nothing else. */
    twostate predicate ClosedSince()
      reads this
    {
      State() == AfterClose(old(State()))
    }

    /** A device nobody touched has the state it had. */
    twostate lemma StateKept()
      requires unchanged(this)
      ensures State() == old(State())
    {
    }

    /**
     * Builds the device from its description. `readProperty(url, name)` is the outcome of the
     * initial read of a property: the value under its name, or `None` when that read failed.
     * `supportsSaving` says whether the gateway reports saved devices: if it does, reading
     * only starts once the device is saved, so construction opens no socket; on an older
     * gateway construction already starts reading, which in push mode opens a socket.
     */
    constructor (id: string, url: string, authentication: Authentication, description: Description,
                 mdnsUrl: string, readProperty: (string, string) -> Option<Value>, supportsSaving: bool)
      ensures Valid() && KeyedByName()
      ensures this.id == id && this.url == url && this.mdnsUrl == mdnsUrl && source == description
      ensures this.authentication == authentication && baseHref == Origin(url)
      ensures var c := Classify(Origin(url), LinksOf(description.links));
        actionsUrl == c.actionsUrl && eventsUrl == c.eventsUrl && wsUrl == c.wsUrl && links == c.links
      ensures actionDescriptions == map n | n in description.actions :: FlagInteraction(description.actions[n])
      ensures eventDescriptions == map n | n in description.events :: FlagInteraction(description.events[n])
      ensures properties.Keys ==
        set n | n in description.properties && Loaded(baseHref, description.properties[n], n, readProperty)
      ensures forall n :: n in properties ==>
        && fresh(properties[n])
        && properties[n].url == PropertyUrl(baseHref, description.properties[n]).value
        && properties[n].value == readProperty(properties[n].url, n).value
        && properties[n].notified == [properties[n].value]
      ensures supportsSaving || !PushMode() ==> socket == NoSocket && socketUrl == None
      ensures !supportsSaving && PushMode() ==>
        socket == Connecting && socketUrl == Some(SocketUrl(wsUrl.value, authentication))
      ensures wsBackoff == WS_INITIAL_BACKOFF
      ensures !pinging && reconnectDelay == None && !scheduledUpdate && pollDelay == None
      ensures !closing && notifiedEvents == {} && requestedActions == map[] && log == [] && outbox == []
    {
      this.id := id;
      this.source := description;
      this.url := url;
      this.mdnsUrl := mdnsUrl;
      this.authentication := authentication;
      var origin := Origin(url);
      baseHref := origin;
      actionDescriptions := map n | n in description.actions :: FlagInteraction(description.actions[n]);
      eventDescriptions := map n | n in description.events :: FlagInteraction(description.events[n]);
      var loaded := LoadProperties(origin, description.properties, readProperty);
      properties := loaded;
      var c := ClassifyLinks(origin, LinksOf(description.links));
      actionsUrl, eventsUrl, wsUrl, links := c.actionsUrl, c.eventsUrl, c.wsUrl, c.links;
      socket, socketUrl, wsBackoff, pinging, reconnectDelay := NoSocket, None, WS_INITIAL_BACKOFF, false, None;
      scheduledUpdate, pollDelay, closing := false, None, false;
      notifiedEvents, requestedActions, log, outbox := {}, map[], [], [];
      new;
      if !supportsSaving {
        var pollStarted := StartReading();
      }
    }

    /**
     * `startReading(true)`: in push mode open a socket unless one exists; in pull mode start
     * polling (`pollStarted`) unless a poll timer was ever stored.
     */
    method StartReading() returns (pollStarted: bool)
      requires Valid()
      modifies this`socket, this`socketUrl
      ensures Valid()
      ensures PushMode() ==> !pollStarted
      ensures PushMode() && old(socket) == NoSocket && !closing ==>
        socket == Connecting && socketUrl == Some(SocketUrl(wsUrl.value, authentication))
      ensures !(PushMode() && old(socket) == NoSocket && !closing) ==>
        socket == old(socket) && socketUrl == old(socketUrl)
      ensures !PushMode() ==> pollStarted == !scheduledUpdate
    {
      pollStarted := false;
      if wsUrl.Some? {
        if socket == NoSocket {
          CreateWebSocket();
        }
      } else {
        pollStarted := !scheduledUpdate;
      }
    }

    /**
     * `closeWebSocket`: enter the closing state. An open socket is asked to close (a `Close`
     * request goes out and the socket is closing until its close event arrives through
     * `OnCloseOrError`), any other socket is left to its handlers, and without a socket a
     * pending poll timer is cancelled. A pending reconnect timer is not cancelled.
     */
    method CloseWebSocket()
      requires Valid()
      modifies this`closing, this`pollDelay, this`outbox, this`socket
      ensures Valid()
      ensures closing
      ensures socket == if old(socket) == Open then Closing else old(socket)
      ensures pollDelay == if old(socket) == NoSocket && scheduledUpdate then None else old(pollDelay)
      ensures outbox == old(outbox) + if old(socket) == Open then [Close] else []
      ensures State() == AfterClose(old(State()))
    {
      closing := true;
      if socket != NoSocket {
        if socket == Open {
          outbox := outbox + [Close];
          socket := Closing;
        }
      } else if scheduledUpdate {
        pollDelay := None;
      }
    }

    /** `createWebSocket`: a no-op once closing; otherwise a socket is created on the endpoint. */
    method CreateWebSocket()
      requires Valid() && PushMode()
      modifies this`socket, this`socketUrl
      ensures Valid()
      ensures old(closing) ==> socket == old(socket) && socketUrl == old(socketUrl)
      ensures !old(closing) ==>
        socket == Connecting && socketUrl == Some(SocketUrl(wsUrl.value, authentication))
    {
      if closing {
        return;
      }
      socket := Connecting;
      socketUrl := Some(SocketUrl(wsUrl.value, authentication));
    }

    /**
     * The socket opened: report connected, reset the backoff, subscribe to every described
     * event in one message (when there is any), and start pinging.
     */
    method OnOpen()
      requires Valid() && socket == Connecting
      modifies this`socket, this`log, this`wsBackoff, this`outbox, this`pinging
      ensures Valid()
      ensures socket == Open && pinging && wsBackoff == WS_INITIAL_BACKOFF
      ensures log == old(log) + [Connected(true)]
      ensures outbox == old(outbox) +
        (if |eventDescriptions| > 0 then [AddEventSubscription(eventDescriptions.Keys)] else [])
    {
      socket := Open;
      log := log + [Connected(true)];
      wsBackoff := WS_INITIAL_BACKOFF;
      if |eventDescriptions| > 0 {
        outbox := outbox + [AddEventSubscription(eventDescriptions.Keys)];
      }
      pinging := true;
    }

    /**
     * The socket closed or failed: report disconnected, stop pinging, drop the socket and
     * schedule a reconnect after the current backoff. This happens in the closing state too;
     * the reconnect it schedules then does nothing.
     */
    method OnCloseOrError()
      requires Valid() && socket != NoSocket
      modifies this`socket, this`log, this`pinging, this`reconnectDelay
      ensures Valid()
      ensures socket == NoSocket && !pinging && reconnectDelay == Some(wsBackoff)
      ensures log == old(log) + [Connected(false)]
    {
      log := log + [Connected(false)];
      pinging := false;
      socket := NoSocket;
      reconnectDelay := Some(wsBackoff);
    }

    /** The reconnect timer fired: double the backoff (capped), then try to create a socket. */
    method OnReconnectTimer()
      requires Valid() && reconnectDelay.Some?
      modifies this`reconnectDelay, this`wsBackoff, this`socket, this`socketUrl
      ensures Valid()
      ensures reconnectDelay == None && wsBackoff == NextBackoff(old(wsBackoff))
      ensures closing ==> socket == old(socket) && socketUrl == old(socketUrl)
      ensures !closing ==> socket == Connecting && socketUrl == Some(SocketUrl(wsUrl.value, authentication))
    {
      reconnectDelay := None;
      wsBackoff := Min(wsBackoff * 2, WS_MAX_BACKOFF);
      CreateWebSocket();
    }

    /** Per property named in `values`: cache and report a value that is not strictly equal. */
    method RefreshProperties(values: map<string, Value>)
      requires Valid() && KeyedByName()
      modifies properties.Values
      ensures forall n :: n in properties ==>
        properties[n].value == if n in values then values[n] else old(properties[n].value)
      ensures forall n :: n in properties ==>
        properties[n].notified == old(properties[n].notified) +
          (if n in values && !StrictlyEqual(values[n], old(properties[n].value)) then [values[n]] else [])
    {
      var todo := values.Keys;
      while todo != {}
        invariant todo <= values.Keys
        invariant forall n :: n in properties ==>
          properties[n].value == if n in values && n !in todo then values[n] else old(properties[n].value)
        invariant forall n :: n in properties ==>
          properties[n].notified == old(properties[n].notified) +
            (if n in values && n !in todo && !StrictlyEqual(values[n], old(properties[n].value))
             then [values[n]] else [])
        decreases todo
      {
        var name :| name in todo;
        if name in properties {
          var changed := properties[name].Refresh(values[name]);
        }
        todo := todo - {name};
      }
    }

    /** Apply status reports to the tracked actions and report each update. */
    method TrackReports(reports: seq<ActionReport>, onlyOnChange: bool)
      requires Valid()
      modifies this`requestedActions, this`log
      ensures Valid()
      ensures requestedActions == Track(old(requestedActions), reports, onlyOnChange).0
      ensures log == old(log) + Track(old(requestedActions), reports, onlyOnChange).1
    {
      var i := 0;
      while i < |reports|
        invariant 0 <= i <= |reports|
        invariant requestedActions == Track(old(requestedActions), reports[..i], onlyOnChange).0
        invariant log == old(log) + Track(old(requestedActions), reports[..i], onlyOnChange).1
      {
        var report := reports[i];
        if report.href in requestedActions {
          var tracked := requestedActions[report.href];
          if !onlyOnChange || !StrictlyEqual(report.status, tracked.status) {
            var updated := Updated(tracked, report);
            requestedActions := requestedActions[report.href := updated];
            log := log + [ActionChanged(updated)];
          }
        }
        assert reports[..i + 1][..i] == reports[..i];
        i := i + 1;
      }
      assert reports[..i] == reports;
    }

    /** `createEvent`: the dedup gate. A new identity is recorded and its event reported once. */
    method CreateEvent(name: string, e: EventPayload, now: string)
      requires Valid()
      modifies this`notifiedEvents, this`log
      ensures Valid()
      ensures EventId(name, e) in old(notifiedEvents) ==>
        notifiedEvents == old(notifiedEvents) && log == old(log)
      ensures EventId(name, e) !in old(notifiedEvents) ==>
        notifiedEvents == old(notifiedEvents) + {EventId(name, e)} &&
        log == old(log) + [EventNotice(name, e, now)]
    {
      var eventId := EventId(name, e);
      if eventId in notifiedEvents {
        return;
      }
      var timestamp := if e.timestamp.Some? then e.timestamp.value else now;
      notifiedEvents := notifiedEvents + {eventId};
      log := log + [EventRaised(name, if Truthy(e.data) then e.data else Null, timestamp)];
    }

    /** Run a batch of events through the dedup gate, in order. */
    method DeliverEvents(events: seq<(string, EventPayload)>, now: string)
      requires Valid()
      modifies this`notifiedEvents, this`log
      ensures Valid()
      ensures notifiedEvents == old(notifiedEvents) + EventIds(events)
      ensures log == old(log) + NewEventNotices(old(notifiedEvents), events, now)
    {
      var i := 0;
      while i < |events|
        invariant 0 <= i <= |events|
        invariant notifiedEvents == old(notifiedEvents) + EventIds(events[..i])
        invariant log == old(log) + NewEventNotices(old(notifiedEvents), events[..i], now)
      {
        assert events[..i + 1][..i] == events[..i];
        CreateEvent(events[i].0, events[i].1, now);
        i := i + 1;
      }
      assert events[..i] == events;
    }

    /** An inbound socket message, dispatched on its type. */
    method OnMessage(msg: Inbound, now: string)
      requires Valid() && KeyedByName()
      modifies this`requestedActions, this`notifiedEvents, this`log, properties.Values
      ensures Valid()
      ensures msg.PropertyStatus? ==> forall n :: n in properties ==>
        && properties[n].value == (if n in msg.values then msg.values[n] else old(properties[n].value))
        && properties[n].notified == old(properties[n].notified) +
             (if n in msg.values && !StrictlyEqual(msg.values[n], old(properties[n].value))
              then [msg.values[n]] else [])
      ensures !msg.PropertyStatus? ==> forall n :: n in properties ==>
        properties[n].value == old(properties[n].value) && properties[n].notified == old(properties[n].notified)
      ensures msg.ActionStatus? ==>
        requestedActions == Track(old(requestedActions), msg.reports, false).0 &&
        log == old(log) + Track(old(requestedActions), msg.reports, false).1
      ensures !msg.ActionStatus? ==> requestedActions == old(requestedActions)
      ensures msg.EventMessage? ==>
        notifiedEvents == old(notifiedEvents) + EventIds(msg.events) &&
        log == old(log) + NewEventNotices(old(notifiedEvents), msg.events, now)
      ensures !msg.EventMessage? ==> notifiedEvents == old(notifiedEvents)
      ensures msg.PropertyStatus? || msg.Unrecognized? ==> log == old(log)
    {
      match msg {
        case PropertyStatus(values) => RefreshProperties(values);
        case ActionStatus(reports) => TrackReports(reports, false);
        case EventMessage(events) => DeliverEvents(events, now);
        case Unrecognized =>
      }
    }

    /**
     * One poll cycle in pull mode. Properties whose read succeeded are refreshed; the
     * actions list is read only if every property read succeeded, the events list only if
     * the actions stage succeeded; the cycle reports connected iff every stage succeeded.
     * The next cycle is scheduled after `pollInterval` either way. Once closing, nothing.
     */
    method Poll(input: PollInput, pollInterval: int, now: string)
      requires Valid() && KeyedByName() && !PushMode()
      modifies this`requestedActions, this`notifiedEvents, this`log, this`scheduledUpdate, this`pollDelay
      modifies properties.Values
      ensures Valid()
      ensures old(closing) ==> unchanged(this) && forall n :: n in properties ==>
        properties[n].value == old(properties[n].value) && properties[n].notified == old(properties[n].notified)
      ensures !old(closing) ==> forall n :: n in properties ==>
        && properties[n].value ==
             (if n in input.propertyValues then input.propertyValues[n] else old(properties[n].value))
        && properties[n].notified == old(properties[n].notified) +
             (if n in input.propertyValues && !StrictlyEqual(input.propertyValues[n], old(properties[n].value))
              then [input.propertyValues[n]] else [])
      ensures !old(closing) ==>
        var outcome := PollStagesOutcome(old(requestedActions), old(notifiedEvents),
                                         properties.Keys <= input.propertyValues.Keys, input, now);
        && requestedActions == outcome.0
        && notifiedEvents == outcome.1
        && log == old(log) + outcome.2
        && scheduledUpdate && pollDelay == Some(pollInterval)
    {
      if closing {
        return;
      }
      RefreshProperties(input.propertyValues);
      PollStages(properties.Keys <= input.propertyValues.Keys, input, now);
      scheduledUpdate := true;
      pollDelay := Some(pollInterval);
    }

    /**
     * The actions stage of a poll cycle, run only when the earlier stage succeeded (`go`):
     * whether it succeeded, the tracked actions afterwards and the notices it reports. A
     * thing without an actions endpoint passes; one whose list could not be read fails.
     */
    function ActionsStage(actions: map<string, Action>, go: bool, actionList: Option<seq<ActionReport>>)
      : (stage: (bool, map<string, Action>, seq<Notice>))
      ensures stage.0 <==> go && (actionsUrl.None? || actionList.Some?)
      ensures stage.1.Keys == actions.Keys
      ensures !(go && actionsUrl.Some? && actionList.Some?) ==> stage.1 == actions && stage.2 == []
    {
      if go && actionsUrl.Some? && actionList.Some? then
        TrackKeepsActions(actions, actionList.value, true);
        var tracked := Track(actions, actionList.value, true);
        (true, tracked.0, tracked.1)
      else (go && actionsUrl.None?, actions, [])
    }

    /**
     * The events stage of a poll cycle, run only when the earlier stages succeeded (`go`):
     * whether it succeeded, the delivered event ids afterwards and the events it raises.
     */
    function EventsStage(seen: set<Value>, go: bool, eventList: Option<seq<(string, EventPayload)>>, now: string)
      : (stage: (bool, set<Value>, seq<Notice>))
      ensures stage.0 <==> go && (eventsUrl.None? || eventList.Some?)
      ensures seen <= stage.1
      ensures !(go && eventsUrl.Some? && eventList.Some?) ==> stage.1 == seen && stage.2 == []
      ensures go && eventsUrl.Some? && eventList.Some? ==> |stage.2| == |EventIds(eventList.value) - seen|
    {
      if go && eventsUrl.Some? && eventList.Some? then
        EventNoticesCount(seen, eventList.value, now);
        (true, seen + EventIds(eventList.value), NewEventNotices(seen, eventList.value, now))
      else (go && eventsUrl.None?, seen, [])
    }

    /** The actions stage of a poll cycle. */
    method ReadActionList(go: bool, actionList: Option<seq<ActionReport>>) returns (ok: bool)
      requires Valid()
      modifies this`requestedActions, this`log
      ensures Valid()
      ensures var stage := ActionsStage(old(requestedActions), go, actionList);
        ok == stage.0 && requestedActions == stage.1 && log == old(log) + stage.2
    {
      ok := go;
      if ok && actionsUrl.Some? {
        match actionList {
          case None => ok := false;
          case Some(reports) => TrackReports(reports, true);
        }
      }
    }

    /** The events stage of a poll cycle. */
    method ReadEventList(go: bool, eventList: Option<seq<(string, EventPayload)>>, now: string) returns (ok: bool)
      requires Valid()
      modifies this`notifiedEvents, this`log
      ensures Valid()
      ensures var stage := EventsStage(old(notifiedEvents), go, eventList, now);
        ok == stage.0 && notifiedEvents == stage.1 && log == old(log) + stage.2
    {
      ok := go;
      if ok && eventsUrl.Some? {
        match eventList {
          case None => ok := false;
          case Some(events) => DeliverEvents(events, now);
        }
      }
    }

    /**
     * What the actions and events stages of a poll cycle do to the tracked actions, the
     * delivered event ids and the notices, given whether every property read succeeded.
     * The cycle ends with one `Connected` notice, true exactly when every stage succeeded.
     */
    function PollStagesOutcome(actions: map<string, Action>, seen: set<Value>, propertiesOk: bool,
                               input: PollInput, now: string): (outcome: (map<string, Action>, set<Value>, seq<Notice>))
      ensures |outcome.2| >= 1
      ensures outcome.2[|outcome.2| - 1] == Connected(
        propertiesOk && (actionsUrl.None? || input.actionList.Some?) && (eventsUrl.None? || input.eventList.Some?))
      ensures !propertiesOk ==> outcome == (actions, seen, [Connected(false)])
      ensures outcome.0.Keys == actions.Keys && seen <= outcome.1
    {
      var actionsStage := ActionsStage(actions, propertiesOk, input.actionList);
      var eventsStage := EventsStage(seen, actionsStage.0, input.eventList, now);
      assert !propertiesOk ==> !eventsStage.0 && actionsStage.2 + eventsStage.2 + [Connected(eventsStage.0)] == [Connected(false)];
      (actionsStage.1, eventsStage.1, actionsStage.2 + eventsStage.2 + [Connected(eventsStage.0)])
    }

    /** The actions and events stages of a poll cycle, after the properties were read. */
    method PollStages(propertiesOk: bool, input: PollInput, now: string)
      requires Valid()
      modifies this`requestedActions, this`notifiedEvents, this`log
      ensures Valid()
      ensures var outcome := PollStagesOutcome(old(requestedActions), old(notifiedEvents), propertiesOk, input, now);
        requestedActions == outcome.0 && notifiedEvents == outcome.1 && log == old(log) + outcome.2
    {
      ghost var log0 := log;
      ghost var actionsStage := ActionsStage(requestedActions, propertiesOk, input.actionList);
      var ok := ReadActionList(propertiesOk, input.actionList);
      ghost var eventsStage := EventsStage(notifiedEvents, ok, input.eventList, now);
      ok := ReadEventList(ok, input.eventList, now);
      log := log + [Connected(ok)];
      assert log == log0 + (actionsStage.2 + eventsStage.2 + [Connected(ok)]);
    }

    /**
     * `performAction`: `posted` is the href the thing returned for the new action, or `None`
     * when the POST or its response failed. The action is first started (its status becomes
     * pending and it is reported); success then tracks it under that href, failure marks it
     * as an error and reports it again at once, without retrying.
     */
    method PerformAction(action: Action, posted: Option<string>) returns (result: Action)
      requires Valid()
      modifies this`requestedActions, this`log
      ensures Valid()
      ensures result.id == action.id && result.name == action.name && result.input == action.input
      ensures result.timeRequested == action.timeRequested && result.timeCompleted == action.timeCompleted
      ensures posted.Some? ==>
        result.status == Text("pending") && requestedActions == old(requestedActions)[posted.value := result] &&
        log == old(log) + [ActionChanged(result)]
      ensures posted.None? ==>
        result.status == Text("error") && requestedActions == old(requestedActions) &&
        log == old(log) + [ActionChanged(result.(status := Text("pending"))), ActionChanged(result)]
    {
      var started := action.(status := Text("pending"));
      log := log + [ActionChanged(started)];
      match posted {
        case Some(href) =>
          requestedActions := requestedActions[href := started];
          result := started;
        case None =>
          result := started.(status := Text("error"));
          log := log + [ActionChanged(result)];
      }
    }

    /**
     * `cancelAction`: stop tracking every action with this id and name, and return the hrefs
     * whose DELETE was issued; all other tracked actions stay as they were.
     */
    method CancelAction(actionId: string, actionName: string) returns (deleted: set<string>)
      requires Valid()
      modifies this`requestedActions
      ensures Valid()
      ensures deleted == set h | h in old(requestedActions) && Matches(old(requestedActions)[h], actionId, actionName)
      ensures requestedActions == map h | h in old(requestedActions) && h !in deleted :: old(requestedActions)[h]
    {
      deleted := {};
      var todo := requestedActions.Keys;
      ghost var tracked := requestedActions;
      while todo != {}
        invariant todo <= tracked.Keys
        invariant deleted == set h | h in tracked && h !in todo && Matches(tracked[h], actionId, actionName)
        invariant requestedActions == map h | h in tracked && h !in deleted :: tracked[h]
        decreases todo
      {
        var href :| href in todo;
        if Matches(requestedActions[href], actionId, actionName) {
          deleted := deleted + {href};
          requestedActions := map h | h in requestedActions && h != href :: requestedActions[h];
        }
        todo := todo - {href};
      }
    }

    /**
     * The gateway setting a property: the property's `setValue` with this device's socket
     * state; a `setProperty` message it produces goes out on the socket.
     */
    method SetPropertyValue(name: string, requested: Value, put: Option<Value>) returns (result: Option<Value>)
      requires Valid() && KeyedByName()
      modifies this`outbox, properties.Values
      ensures Valid()
      ensures name !in properties ==> result == None && outbox == old(outbox)
      ensures name in properties && socket == Open ==>
        result == Some(requested) && outbox == old(outbox) + [SetProperty(name, requested)]
      ensures name in properties && socket != Open ==> outbox == old(outbox) && result.Some?
      ensures forall n :: n in properties && n != name ==>
        properties[n].value == old(properties[n].value) && properties[n].notified == old(properties[n].notified)
    {
      if name !in properties {
        return None;
      }
      var value, sent := properties[name].SetValue(requested, socket == Open, put);
      if sent.Some? {
        outbox := outbox + [sent.value];
      }
      result := Some(value);
    }
  }
}

=== FILE: headers.dfy ===
/**
 * The request headers sent with every fetch: `getHeaders` in src/getHeaders.ts and its
 * JavaScript twin in thing-url-adapter.js. Only the bearer-token method (`jwt`) adds an
 * `Authorization` header, in the `Bearer` form of section 2.1 of RFC 6750; `basic`,
 * `digest` and unknown methods are accepted and add nothing.
 */
module Headers {
  import opened Values

  /**
   * An authentication descriptor `{method, token}`; its `method` member is called `scheme`
   * here. Either member may be missing.
   */
  datatype Authentication = Authentication(scheme: Option<string>, token: Option<string>)

  const JSON_MEDIA_TYPE := "application/json"

  predicate IsJwt(auth: Authentication) {
    auth.scheme == Some("jwt")
  }

  /** `Bearer ${authentication.token}`. */
  function BearerValue(auth: Authentication): string {
    "Bearer " + Render(auth.token)
  }

  /**
   * The TypeScript copy. Its header object literal always has an `Authorization` member,
   * whose value stays `undefined` (here `None`) unless the method is `jwt`.
   */
  function GetHeaders(auth: Authentication, includeContentType: bool): (h: map<string, Option<string>>)
    ensures "Accept" in h && h["Accept"] == Some(JSON_MEDIA_TYPE)
    ensures "Content-Type" in h <==> includeContentType
    ensures "Content-Type" in h ==> h["Content-Type"] == Some(JSON_MEDIA_TYPE)
    ensures "Authorization" in h
    ensures IsJwt(auth) ==> h["Authorization"] == Some(BearerValue(auth))
    ensures !IsJwt(auth) ==> h["Authorization"] == None
    ensures h.Keys <= {"Accept", "Content-Type", "Authorization"}
  {
    var headers := map["Accept" := Some(JSON_MEDIA_TYPE), "Authorization" := None];
    var headers := if includeContentType then headers["Content-Type" := Some(JSON_MEDIA_TYPE)] else headers;
    match auth.scheme
    case Some("jwt") => headers["Authorization" := Some(BearerValue(auth))]
    case _ => headers
  }

  /** The JavaScript copy, which only creates the `Authorization` member for `jwt`. */
  function GetHeadersJs(auth: Authentication, includeContentType: bool): (h: map<string, string>)
    ensures "Accept" in h && h["Accept"] == JSON_MEDIA_TYPE
    ensures "Content-Type" in h <==> includeContentType
    ensures "Content-Type" in h ==> h["Content-Type"] == JSON_MEDIA_TYPE
    ensures "Authorization" in h <==> IsJwt(auth)
    ensures "Authorization" in h ==> h["Authorization"] == BearerValue(auth)
    ensures h.Keys <= {"Accept", "Content-Type", "Authorization"}
  {
    var headers := map["Accept" := JSON_MEDIA_TYPE];
    var headers := if includeContentType then headers["Content-Type" := JSON_MEDIA_TYPE] else headers;
    match auth.scheme
    case Some("jwt") => headers["Authorization" := BearerValue(auth)]
    case _ => headers
  }

  /**
   * The two copies agree on every header the JavaScript copy sets; the only difference is the
   * `Authorization` member that the TypeScript copy carries as `undefined` for non-jwt methods.
   */
  lemma CopiesAgree(auth: Authentication, includeContentType: bool)
    ensures forall k :: k in GetHeadersJs(auth, includeContentType) ==>
      k in GetHeaders(auth, includeContentType) &&
      GetHeaders(auth, includeContentType)[k] == Some(GetHeadersJs(auth, includeContentType)[k])
    ensures GetHeaders(auth, includeContentType).Keys - GetHeadersJs(auth, includeContentType).Keys
         == if IsJwt(auth) then {} else {"Authorization"}
    ensures forall k :: (k in GetHeaders(auth, includeContentType) &&
      GetHeaders(auth, includeContentType)[k].Some?) ==> k in GetHeadersJs(auth, includeContentType)
  {
    var ts, js := GetHeaders(auth, includeContentType), GetHeadersJs(auth, includeContentType);
    assert ts.Keys == js.Keys + (if IsJwt(auth) then {} else {"Authorization"});
  }

  /** Without `jwt` the token is never read: headers depend on the method and flag only. */
  lemma NonJwtIgnoresToken(a: Authentication, b: Authentication, includeContentType: bool)
    requires !IsJwt(a) && !IsJwt(b)
    ensures GetHeaders(a, includeContentType) == GetHeaders(b, includeContentType)
    ensures GetHeadersJs(a, includeContentType) == GetHeadersJs(b, includeContentType)
  {
    var ta, tb := GetHeaders(a, includeContentType), GetHeaders(b, includeContentType);
    assert ta.Keys == tb.Keys;
    var ja, jb := GetHeadersJs(a, includeContentType), GetHeadersJs(b, includeContentType);
    assert ja.Keys == jb.Keys;
  }
}

=== FILE: messages.dfy ===
/**
 * The JSON messages exchanged with a thing: WebSocket messages in both directions, the
 * entries of the actions and events lists read while polling, and the notices the device
 * reports to the gateway.
 */
module Messages {
  import opened Values

  /** An entry `{href, status, timeRequested, timeCompleted}` of an action status report. */
  datatype ActionReport = ActionReport(href: string, status: Value, timeRequested: Value, timeCompleted: Value)

  /** An event entry `{data?, timestamp?}`; a missing `data` is `Undefined`. */
  datatype EventPayload = EventPayload(data: Value, timestamp: Option<string>)

  /**
   * An inbound WebSocket message, decoded by its `messageType`. `Unrecognized` covers any
   * other type and text that does not parse; the device ignores both.
   */
  datatype Inbound =
    | PropertyStatus(values: map<string, Value>)
    | ActionStatus(reports: seq<ActionReport>)
    | EventMessage(events: seq<(string, EventPayload)>)
    | Unrecognized

  /** An outbound WebSocket message. */
  datatype Outbound =
    | SetProperty(name: string, value: Value)
    | AddEventSubscription(eventNames: set<string>)
    /** A request to close the connection (`ws.close()`). */
    | Close

  /** A tracked action as the gateway sees it. */
  datatype Action = Action(id: string, name: string, input: Value, status: Value, timeRequested: Value, timeCompleted: Value)

  /** What the device reports to the gateway, in order. */
  datatype Notice =
    | Connected(up: bool)
    | ActionChanged(action: Action)
    | EventRaised(name: string, data: Value, timestamp: string)
}

=== FILE: property.dfy ===
/**
 * A mirrored property: its cached value and the set pathway, which either sends a
 * `setProperty` message over the device's open WebSocket or PUTs the value and adopts the
 * thing's answer.
 */
module Property {
  import opened Values
  import opened Descriptions
  import opened Messages

  class ThingURLProperty {
    const name: string
    const url: string
    /** The description's links, proxy-flagged. */
    const links: Option<seq<Link>>
    /** The cached value. */
    var value: Value
    /** The value reported with each `notifyPropertyChanged`, in order. */
    var notified: seq<Value>

    /** Caches the value read from the thing and reports it once. */
    constructor (name: string, url: string, description: PropertyDescription, initial: Value)
      ensures this.name == name && this.url == url
      ensures links == if description.links.Some? then Some(FlagLinks(description.links.value)) else None
      ensures value == initial
      ensures notified == [initial]
    {
      this.name := name;
      this.url := url;
      this.links := if description.links.Some? then Some(FlagLinks(description.links.value)) else None;
      value := initial;
      notified := [initial];
    }

    /**
     * The update applied by a `propertyStatus` message and by polling: a value that is not
     * strictly equal to the cached one replaces it and is reported.
     */
    method Refresh(incoming: Value) returns (changed: bool)
      modifies this
      ensures changed <==> !StrictlyEqual(incoming, old(value))
      ensures value == incoming
      ensures notified == old(notified) + (if changed then [incoming] else [])
    {
      changed := !StrictlyEqual(incoming, value);
      if changed {
        value := incoming;
        notified := notified + [incoming];
      }
    }

    /**
     * `setValue`. With an open socket the request is sent as it is and returned, the cache
     * is left alone, and a request equal to the cached value is reported at once. Otherwise
     * `put` is the outcome of the PUT: the value the thing answered under this property's
     * name, or `None` when the request or its JSON failed.
     */
    method SetValue(requested: Value, socketOpen: bool, put: Option<Value>)
      returns (result: Value, sent: Option<Outbound>)
      modifies this
      ensures socketOpen ==> sent == Some(SetProperty(name, requested)) && result == requested
      ensures socketOpen ==> value == old(value)
      ensures socketOpen ==>
        notified == old(notified) + (if StrictlyEqual(requested, old(value)) then [old(value)] else [])
      ensures !socketOpen ==> sent == None
      ensures !socketOpen && put.Some? ==>
        value == put.value && result == put.value && notified == old(notified) + [put.value]
      ensures !socketOpen && put.None? ==>
        value == old(value) && result == old(value) && notified == old(notified)
    {
      if socketOpen {
        sent := Some(SetProperty(name, requested));
        // The thing may not echo an unchanged value, so report it now.
        if StrictlyEqual(requested, value) {
          notified := notified + [value];
        }
        return requested, sent;
      }
      sent := None;
      match put {
        case Some(updated) =>
          value := updated;
          notified := notified + [updated];
          result := updated;
        case None =>
          result := value;
      }
    }
  }
}

=== FILE: urls.dfy ===
/**
 * String-level URL handling of the adapter: trailing-character stripping (href normalisation
 * and mDNS host names), URL origins, device ids derived from thing URLs, and the URL built
 * from an mDNS service record.
 */
module Urls {
  import opened Values

  /** `s.replace(/c$/, '')`: drop one trailing `c`, if there is one. */
  function StripLast(s: string, c: char): (r: string)
    ensures r + (if |s| > 0 && s[|s| - 1] == c then [c] else []) == s
    ensures |s| - 1 <= |r| <= |s|
  {
    if |s| > 0 && s[|s| - 1] == c then s[..|s| - 1] else s
  }

  /** The href normalisation of `loadThing` and `unloadThing`: `replace(/\/$/, '')`. */
  function Normalise(href: string): string
  {
    StripLast(href, '/')
  }

  /** Normalisation is a fixed point exactly when the href does not end in two slashes. */
  lemma NormaliseIdempotentIff(href: string)
    ensures Normalise(Normalise(href)) == Normalise(href)
        <==> !(|href| >= 2 && href[|href| - 2..] == "//")
  {
    var n := Normalise(href);
    if |href| >= 2 && href[|href| - 2..] == "//" {
      assert href[|href| - 2] == '/' && href[|href| - 1] == '/';
      assert n == href[..|href| - 1];
      assert n[|n| - 1] == '/';
      assert |Normalise(n)| == |n| - 1;
    } else if |href| > 0 && href[|href| - 1] == '/' {
      assert n == href[..|href| - 1];
      assert |n| == 0 || n[|n| - 1] == href[|href| - 2];
    }
  }

  /** A concrete input on which normalisation is not idempotent. */
  lemma NormaliseNotIdempotent()
    ensures Normalise("a//") == "a/"
    ensures Normalise(Normalise("a//")) == "a"
  {
    assert "a//"[..2] == "a/";
    assert "a/"[..1] == "a";
  }

  /** `s.startsWith(p)`. */
  predicate StartsWith(s: string, p: string) {
    p <= s
  }

  /** Absolute http(s) links need no proxying by the gateway. */
  predicate IsAbsoluteHttp(href: string) {
    StartsWith(href, "http://") || StartsWith(href, "https://")
  }

  /** A WebSocket scheme marks an `alternate` link as the push endpoint. */
  predicate IsWebSocketUrl(href: string) {
    StartsWith(href, "ws://") || StartsWith(href, "wss://")
  }

  /** The index just after the first `://` at or after `i`, if any. */
  function SchemeEnd(s: string, i: nat): (r: Option<nat>)
    requires i <= |s|
    ensures r.Some? ==> i + 3 <= r.value <= |s| && s[r.value - 3..r.value] == "://"
    decreases |s| - i
  {
    if i + 3 > |s| then None
    else if s[i..i + 3] == "://" then Some(i + 3)
    else SchemeEnd(s, i + 1)
  }

  /** The first index at or after `i` holding `/`, `?` or `#`, or `|s|`. */
  function AuthorityEnd(s: string, i: nat): (r: nat)
    requires i <= |s|
    ensures i <= r <= |s|
    ensures forall k :: i <= k < r ==> s[k] !in {'/', '?', '#'}
    ensures r < |s| ==> s[r] in {'/', '?', '#'}
    decreases |s| - i
  {
    if i == |s| || s[i] in {'/', '?', '#'} then i else AuthorityEnd(s, i + 1)
  }

  /**
   * `new URL(href).origin`, taken as scheme, `://` and authority. A string without `://`
   * has the empty origin here.
   */
  function Origin(href: string): string {
    match SchemeEnd(href, 0)
    case None => ""
    case Some(j) => href[..AuthorityEnd(href, j)]
  }

  /**
   * The origin is a prefix of the href, empty exactly when there is no scheme separator,
   * and its authority holds no path, query or fragment delimiter.
   */
  lemma OriginShape(href: string)
    ensures Origin(href) <= href
    ensures Origin(href) == "" <==> SchemeEnd(href, 0).None?
    ensures Origin(href) != "" ==>
      forall k :: SchemeEnd(href, 0).value <= k < |Origin(href)| ==> Origin(href)[k] !in {'/', '?', '#'}
  {
    var start := SchemeEnd(href, 0);
    if start.Some? {
      var j := start.value;
      var e := AuthorityEnd(href, j);
      var origin := href[..e];
      assert Origin(href) == origin;
      forall k | j <= k < e
        ensures origin[k] !in {'/', '?', '#'}
      {
        assert origin[k] == href[k];
      }
    }
  }

  function Sanitise(c: char): char {
    if c == ':' || c == '/' then '-' else c
  }

  /** The device id: `thingUrl.replace(/[:/]/g, '-')`. */
  function ThingId(thingUrl: string): string {
    if thingUrl == [] then [] else [Sanitise(thingUrl[0])] + ThingId(thingUrl[1..])
  }

  /** Every `:` and `/` of the thing URL becomes `-`; every other character stays in place. */
  lemma {:induction false} ThingIdPointwise(thingUrl: string)
    ensures |ThingId(thingUrl)| == |thingUrl|
    ensures forall i :: 0 <= i < |thingUrl| ==> ThingId(thingUrl)[i] == Sanitise(thingUrl[i])
  {
    if thingUrl != [] {
      ThingIdPointwise(thingUrl[1..]);
    }
  }

  /** A device id contains neither separator, and sanitising it again changes nothing. */
  lemma ThingIdIsSanitised(thingUrl: string)
    ensures forall i :: 0 <= i < |ThingId(thingUrl)| ==> ThingId(thingUrl)[i] !in {':', '/'}
    ensures ThingId(ThingId(thingUrl)) == ThingId(thingUrl)
  {
    var id := ThingId(thingUrl);
    ThingIdPointwise(thingUrl);
    ThingIdPointwise(id);
    assert forall i :: 0 <= i < |id| ==> ThingId(id)[i] == id[i];
  }

  /** Distinct thing URLs can share an id, so the registry can conflate two things. */
  lemma ThingIdCollision()
    ensures ThingId("a:b") == ThingId("a/b") == "a-b"
  {
  }

  /** Decimal digits of a port number, as `${port}` renders it. */
  function Decimal(n: nat): (r: string)
    ensures |r| >= 1
    ensures forall i :: 0 <= i < |r| ==> '0' <= r[i] <= '9'
  {
    var d := ['0' + (n % 10) as char];
    if n < 10 then d else Decimal(n / 10) + d
  }

  /** `txt.hasOwnProperty('tls') && txt.tls === '1'`. */
  predicate UsesTls(txt: map<string, string>) {
    "tls" in txt && txt["tls"] == "1"
  }

  /**
   * The URL the `_webthing._tcp` serviceUp and serviceDown handlers build from a service
   * record: `${protocol}://${host}:${port}${txt.path}`, the host without one trailing dot.
   */
  function ServiceUrl(host: string, port: nat, txt: map<string, string>): string {
    (if UsesTls(txt) then "https://" else "http://") +
      (StripLast(host, '.') + ":" + Decimal(port) + Render(if "path" in txt then Some(txt["path"]) else None))
  }

  /**
   * The scheme is `https` exactly when the record asks for TLS and `http` otherwise, and the
   * host follows it without its trailing dot.
   */
  lemma ServiceUrlShape(host: string, port: nat, txt: map<string, string>)
    ensures StartsWith(ServiceUrl(host, port, txt), "https://") <==> UsesTls(txt)
    ensures StartsWith(ServiceUrl(host, port, txt), "http://") <==> !UsesTls(txt)
    ensures var scheme := if UsesTls(txt) then "https://" else "http://";
      StartsWith(ServiceUrl(host, port, txt)[|scheme|..], StripLast(host, '.'))
  {
    var rest := StripLast(host, '.') + ":" + Decimal(port) + Render(if "path" in txt then Some(txt["path"]) else None);
    SchemeThenRest(UsesTls(txt), rest);
  }

  /** A URL made of an `https://` or `http://` scheme and a rest starts with exactly that scheme. */
  lemma SchemeThenRest(tls: bool, rest: string)
    ensures var scheme := if tls then "https://" else "http://";
      && (StartsWith(scheme + rest, "https://") <==> tls)
      && (StartsWith(scheme + rest, "http://") <==> !tls)
      && (scheme + rest)[|scheme|..] == rest
  {
    var scheme := if tls then "https://" else "http://";
    assert (scheme + rest)[4] == scheme[4];
  }
}

=== FILE: values.dfy ===
/** Parsed JSON values as the adapter sees them, and the JavaScript comparisons it applies. */
module Values {

  datatype Option<+T> = None | Some(value: T)

  /**
   * A parsed JSON value. `Undefined` stands for a missing key (`res[name]` when the response
   * has no such member). Numbers are integers in this model.
   */
  datatype Value =
    | Undefined
    | Null
    | Bool(b: bool)
    | Number(n: int)
    | Text(s: string)
    | Arr(items: seq<Value>)
    | Obj(fields: map<string, Value>)

  /**
   * JavaScript `===` on parsed JSON: primitives compare by value, while two objects or
   * arrays are identical only when they are the same reference, which two separately
   * parsed documents never are.
   */
  predicate StrictlyEqual(a: Value, b: Value) {
    a == b && !a.Obj? && !a.Arr?
  }

  /** JavaScript truthiness (`if (v)`, `v || w`). */
  predicate Truthy(v: Value) {
    match v
    case Undefined => false
    case Null => false
    case Bool(b) => b
    case Number(n) => n != 0
    case Text(s) => s != ""
    case Arr(_) => true
    case Obj(_) => true
  }

  /** How a possibly missing string is rendered by a template literal `${x}`. */
  function Render(x: Option<string>): string
  {
    match x
    case Some(s) => s
    case None => "undefined"
  }
}
